=== FILE: README.md ===
# AskDock server core in Dafny

AskDock is a small internal Q&A board built with Next.js on a Postgres
database reached through Supabase. Members post memos (questions) and
comments, and admins manage accounts. Users sign in with a username and a
password. The password is stored as a bcrypt hash. Sign-in creates a row in
the `sessions` table, and the row's id travels back in a cookie.

This project models the server side of that board:

- the fixed-window rate limiter and the request-field validators;
- session resolution and cookie settings;
- login, logout, password change and profile update;
- the admin user list, admin account creation, and account deletion (which
  hands the account's memos and comments to a sentinel `system` account);
- the memo list with its filters, ordering and cursor, memo creation, and the
  four tab counters;
- the page middleware that redirects to the login page.

Modelling choices:

- **Tables.** The four tables live in a `Db.Database` object whose fields are
  maps from row id to row. Every handler is a method that changes exactly the
  fields its `modifies` clause names.
- **Database errors.** Any database call can fail. A handler's `fails`
  parameter is the set of calls (`Db.Call`) that return an error on that
  request, so every error branch of the source is reachable in the model.
- **Clock, configuration, network.** The clock is the parameter `now`
  (milliseconds). Environment variables are the `Auth.Env` value. The
  middleware's call to `/api/auth/me` is the boolean `authOk`.
- **Rate limiter.** The process-wide rate-limit store is a
  `RateLimit.RateLimiter` object.
- **Unique usernames.** The model assumes a unique index on
  `users.username`: an insert under a taken name fails. The schema is not part
  of this model, so this is an assumption about it.
- **Ids.** New row ids come from `Db.NewId`, which returns a non-empty id that
  is not yet in the table.
- **bcrypt.** bcrypt is the pair `Db.Hash` / `Db.Verify`. Both read only the
  first 72 characters of a password, as bcrypt reads only the first 72 bytes.
- **Request bodies.** A JSON request body is a map from field name to a
  JavaScript value (`Validators.JsValue`). A body that fails to parse, or is
  not an object, is the empty map.

The pure parts are functions with their properties proved as lemmas: the
validators, the rate-limit step, the title migration, filtering and paging,
the counts, and the middleware decision. The stateful parts are methods whose
postconditions tie the new tables to those functions. The loops of the source
are methods with loop invariants: the per-memo title update during deletion,
the migration comments, and the id and row listings.

## Model

| member | source | states |
|---|---|---|
| Text.Trim | lib/validators.ts:3 | `String.prototype.trim`: the result is no longer than the input and has no white space at either end. It is empty exactly when the input is all white space. |
| Text.TrimPadded | lib/validators.ts:3 | Trimming a trimmed string padded with white space on both sides gives the string back. |
| Text.TrimIdempotent | lib/validators.ts:3 | Trimming twice is trimming once. |
| Text.StringToNumber | lib/auth.ts:16 | `Number(s)` on decimal text: a blank string is 0, and a digit string is its decimal value. |
| Validators.GetString | lib/validators.ts:1-7 | Non-strings give null. Blank strings and strings whose trimmed length exceeds `max` give null. Otherwise the result is the trimmed input, with 1..max characters. |
| Validators.GetOptionalString | lib/validators.ts:9-16 | Returns exactly what `getString` returns for every input. The extra early exit for undefined, null and '' changes nothing. |
| Validators.GetStringIdempotent | lib/validators.ts:3-6 | A validated string passes validation again unchanged. |
| Validators.ClampNumber | lib/validators.ts:18-23 | null, undefined, '' and non-numbers give `fallback`. Otherwise the parsed value is kept when it lies in [min, max]. A value below min gives min, a value above max gives max, and when min > max the result is max. |
| Sorting.SortBy | app/api/admin/users/route.ts:18 | An `ORDER BY`: the result is sorted by the key and is a permutation of the input. |
| Sorting.Take | app/api/memos/route.ts:29 | `LIMIT n`: the first min(n, length) rows, in order. |
| RateLimit.Check | lib/rateLimit.ts:8-23 | Covers one call. With no running window the call is allowed: count 1, `resetAt` = now + window, remaining = limit - 1. Inside a window the call is allowed iff count < limit, and an allowed call adds 1 and keeps `resetAt`. A denial keeps the store, reports remaining 0 and retry = resetAt - now > 0. An allowed call reports remaining = limit - stored count. Other keys are untouched. |
| RateLimit.RateLimiter.CheckRateLimit | lib/rateLimit.ts:8-23 | The decision and the new store are those of `Check` on the old store. |
| RateLimit.CheckKeepsCountsWithin | lib/rateLimit.ts:12-22 | With limit >= 1, every stored count stays within 1..limit. |
| RateLimit.RunInsideWindow | lib/rateLimit.ts:17-22 | Inside a running window, the i-th successive call is allowed iff count + i < limit. |
| RateLimit.FirstCallsOfWindowAllowed | lib/rateLimit.ts:12-22 | From a fresh window, exactly the first `limit` calls before it ends are allowed. The first call is allowed even when limit <= 0. |
| Db.HashVerifies | app/api/auth/change-password/route.ts:47-52 | A hash verifies the password it was made from. Two passwords of at most 72 characters verify each other only when they are equal. Passwords of 72 or more characters verify each other exactly when their first 72 characters agree. A shorter and a longer password of different lengths never do. |
| Db.Significant | app/api/auth/login/route.ts:33 | The part of a password bcrypt reads: the whole password up to 72 characters, otherwise its first 72 characters. |
| Db.TruncatedPasswordVerifies | app/api/auth/login/route.ts:33 | A stored 80-character password is matched by a different password that shares its first 72 characters. |
| Db.MaybeSingleUserNamed | app/api/auth/login/route.ts:23-27 | `.maybeSingle()` by username: no row gives null, one row gives its id, more than one gives an error. |
| Db.NewId | app/api/auth/login/route.ts:38-42 | A database-generated row id: non-empty and not already in the table. |
| Db.Rows | app/api/admin/users/route.ts:15-18 | A select of a whole table: each row once, every row present, each as stored. |
| Auth.CookieName | lib/auth.ts:11-13 | `APP_COOKIE_NAME` when set and non-empty, else "sid". |
| Auth.SessionDays | lib/auth.ts:15-19 | Always > 0. It is 14 when the variable is unset, empty, non-numeric or <= 0, and the configured value otherwise. |
| Auth.SessionCookieOptions | lib/auth.ts:43-51 | httpOnly, sameSite lax, path '/', secure iff production, maxAge = sessionDays * 86400 seconds. |
| Auth.ClearedSessionCookie | app/api/auth/logout/route.ts:14 | The cookie logout sets: the configured name, an empty value, maxAge 0, httpOnly, sameSite lax, path '/', and secure iff production. |
| Auth.Resolve | lib/auth.ts:21-41 | An absent or empty cookie resolves to nobody. A session yields its user's identity iff the lookup succeeds, the row exists, its user exists and now < expires_at. The same conditions with now >= expires_at, or an unparseable expiry, mean expired. |
| Auth.ExpiryInstantIsExpired | lib/auth.ts:35 | A session whose expiry equals `now` is expired. |
| Auth.SessionsAfterLookup | lib/auth.ts:34-37 | A session that is not expired keeps the table unchanged. An expired session's row is removed unless that delete fails, in which case the table is unchanged. |
| Auth.GetSessionUser | lib/auth.ts:21-41 | Returns the identity `Resolve` finds. The sessions table loses the expired row unless that delete fails. |
| Login.FirstField | app/api/auth/login/route.ts:10 | `split(',')[0]`: the longest comma-free prefix, ending where the first comma stands. |
| Login.ClientIp | app/api/auth/login/route.ts:10 | The trimmed first entry of x-forwarded-for, or "unknown" when the header is missing or that entry is blank. |
| Login.ParseCredentials | app/api/auth/login/route.ts:16-21 | Accepted iff the trimmed username has 1..50 and the trimmed password 1..200 characters. The trimmed values are kept. Anything else is "Invalid payload". |
| Login.NewSession | app/api/auth/login/route.ts:38-43 | The new row names the user and expires at now + sessionDays * 86 400 000 ms. It is live at `now`. |
| Login.Expiry | app/api/auth/login/route.ts:38 | The expiry lies a whole number of days after `now`: exactly `getSessionDays()` days. |
| Login.DefaultExpiryInDateRange | app/api/auth/login/route.ts:38-41 | With the default 14 days, the expiry of a login at any time from 1970 until 14 days before the end of the JavaScript `Date` range (±8.64e15 ms) is a valid `Date`. |
| Login.HugeSessionDaysLeaveDateRange | app/api/auth/login/route.ts:38-41 | With `APP_SESSION_DAYS` set to 200 000 000, the expiry of every login from 1970 on lies outside the `Date` range, so `toISOString()` throws. |
| Login.UnknownNameOrWrongPasswordRejected | app/api/auth/login/route.ts:29-36 | An unknown username and a wrong password both fail the credential check. |
| Login.Authenticate | app/api/auth/login/route.ts:23-36 | Succeeds iff the lookup works, exactly one user has the name, and the hash verifies the password. It then returns that user. Otherwise it returns "Invalid credentials". |
| Login.SignIn | app/api/auth/login/route.ts:23-56 | 401 for bad credentials or a failed lookup. Then a 500 without a JSON error text when the expiry lies outside the `Date` range, because `toISOString()` throws before the insert. Then 500 when the insert fails. Success adds exactly one fresh session for the authenticated user, answers with the user's identity, and sets the cookie to the new session id. Failures add no session. |
| Login.Post | app/api/auth/login/route.ts:9-57 | The rate slot `login:<ip>` (8 per minute) is taken first, and a denial answers 429 with no other effect. Then: 400 for an invalid payload, 401 for bad credentials or a failed lookup, 500 (an uncaught RangeError) when the expiry lies outside the `Date` range, 500 when the session insert fails, and 200 otherwise. Only a 200 adds a session: exactly one, for the authenticated user, whose id is the cookie. |
| Login.NewSessionResolves | app/api/auth/login/route.ts:38-55 | The cookie a login hands out resolves to that user until the session expires. |
| Logout.AfterLogout | app/api/auth/logout/route.ts:8-11 | With a non-empty cookie, exactly the cookie's session is removed. With no cookie value, nothing is removed. Other sessions are untouched. |
| Logout.Post | app/api/auth/logout/route.ts:6-16 | The sessions table becomes `AfterLogout` of the old one. The answer is always `{ok:true}` with the cookie cleared. |
| Logout.LogoutTwiceIsLogoutOnce | app/api/auth/logout/route.ts:8-11 | A second logout with the same cookie changes nothing more. |
| Logout.LoggedOutCookieResolvesToNobody | app/api/auth/logout/route.ts:8-11 | After its row is deleted, a cookie resolves to nobody. |
| ChangePassword.ParseChange | app/api/auth/change-password/route.ts:20-35 | Accepted iff all three fields are valid, the trimmed new password has at least 8 characters, and it equals the trimmed confirmation. The error message is the first failing check's: "Invalid payload", then "Password must be at least 8 characters", then "Passwords do not match". |
| ChangePassword.WithPassword | app/api/auth/change-password/route.ts:52-56 | Only the caller's hash changes, and the new hash verifies the new password. |
| ChangePassword.WithoutSessionsOf | app/api/auth/change-password/route.ts:62 | Exactly the caller's sessions are removed. |
| ChangePassword.Apply | app/api/auth/change-password/route.ts:37-66 | Checks in order: 404 when the row is missing, 400 for a wrong current password, 500 when the update fails. Failures change nothing. Success stores the new hash, deletes the caller's sessions unless that delete fails, and clears the cookie. |
| ChangePassword.ForUser | app/api/auth/change-password/route.ts:15-66 | The rate slot `pwd:<id>` (6 per minute) is consumed before the payload is read, even when the payload is then rejected. |
| ChangePassword.Post | app/api/auth/change-password/route.ts:9-67 | 401 without a session, and then the rate limiter is untouched. Otherwise the slot `pwd:<id>` is taken, then come 429, 400 with the payload message, 404 for a missing row or a failed load, 400 for a wrong current password, and 500 for a failed update. 200 otherwise. Only a 200 changes the hash, and it also drops the caller's sessions. |
| ChangePassword.NoSessionOfUserSurvives | app/api/auth/change-password/route.ts:62 | After the change, no session of the user authenticates, the caller's included. |
| Profile.WithDisplayName | app/api/account/profile/route.ts:19-22 | Only the caller's display name changes. |
| Profile.Rename | app/api/account/profile/route.ts:13-28 | 400 unless the trimmed name has 1..40 characters, then 500 when the update fails. Failures change no user. Success stores the name on the caller's row only. |
| Profile.Post | app/api/account/profile/route.ts:6-29 | 401 without a session, 400 unless the trimmed name has 1..40 characters, 500 when the update fails. Failures change no user. Success echoes the stored trimmed name. |
| AdminUsers.UsersByCreation | app/api/admin/users/route.ts:15-18 | The listed users in ascending `created_at` order, as a permutation of the rows. |
| AdminUsers.ListByCreation | app/api/admin/users/route.ts:15-24 | Lists every user exactly once, without the password hash, oldest first. |
| AdminUsers.Get | app/api/admin/users/route.ts:5-25 | 401, then 403 for a non-admin, then 500 on a select error. Otherwise every user is listed once, ordered by created_at ascending. |
| AdminUsers.MigratedTitle | app/api/admin/users/route.ts:113-116 | The result always starts with "[MIGRATED]". A title that already starts with it is kept. |
| AdminUsers.MigratedTitleIdempotent | app/api/admin/users/route.ts:113-116 | Marking twice is marking once, so the prefix is never doubled. |
| AdminUsers.MigratedEmptyTitle | app/api/admin/users/route.ts:114-116 | An empty title becomes "[MIGRATED]". |
| AdminUsers.MigratedTrimmedTitle | app/api/admin/users/route.ts:116 | An unmarked trimmed title gets exactly "[MIGRATED] " in front. |
| AdminUsers.MemosOf | app/api/admin/users/route.ts:71-74 | Exactly the memos whose author is the target. |
| AdminUsers.ReassignedComments | app/api/admin/users/route.ts:82-85 | The target's comments get the system author. Nothing else changes. |
| AdminUsers.ReassignedMemos | app/api/admin/users/route.ts:91-94 | The target's memos get the system author. Nothing else changes. |
| AdminUsers.Retitled | app/api/admin/users/route.ts:113-124 | The listed memos carry their migrated title. The other memos are untouched. |
| AdminUsers.MigratedMemos | app/api/admin/users/route.ts:91-124 | After migration, no memo names the target. Each former memo has the system author and a migrated title. Other memos are unchanged. |
| AdminUsers.MigrationRerunIsNoOp | app/api/admin/users/route.ts:113-124 | Migrating the memos table a second time changes nothing. |
| AdminUsers.DeletedLeavesNoOrphans | app/api/admin/users/route.ts:82-126 | After a deletion, the user is gone and no memo or comment names it as author. |
| AdminUsers.AddMigrationComments | app/api/admin/users/route.ts:100-111 | Exactly one new comment per listed memo: by the system account, with the note, not an answer. Existing comments are kept. |
| AdminUsers.RetitleMemos | app/api/admin/users/route.ts:113-124 | Succeeds iff no issued title update fails. Success retitles exactly the listed memos. A failure stops at the first failing row, and the memos before it are retitled. Keys are unchanged. |
| AdminUsers.Handover | app/api/admin/users/route.ts:80-111 | Comments are reassigned, then memos, then the notes are inserted (only when the target had memos). The first failing step decides the error and the state left behind. |
| AdminUsers.Finish | app/api/admin/users/route.ts:113-131 | The title loop, then the user delete. It answers 200 iff every title update and the delete succeed, and then has marked exactly the listed memos and removed the user row. The first failure decides the message. A failure keeps the users table. |
| AdminUsers.Migrate | app/api/admin/users/route.ts:80-131 | 200 iff every write succeeds. It then leaves the tables in the `Deleted` state: the target row is removed, memos are migrated, and one note is added per memo. Failures keep every user. Each failed hand-over step gives its own message and leaves exactly the memos and comments of the steps before it. Past the hand-over the comments hold the notes. A failed user delete leaves the memos migrated. |
| AdminUsers.SystemUser | app/api/admin/users/route.ts:47-55 | The system account exists for the handler iff exactly one user is named "system". |
| AdminUsers.Cascade | app/api/admin/users/route.ts:47-131 | Refusals in order: 500 missing system user, 404 missing target, 400 target named "system", 500 memo select error. Each comes before any write. Past them, with the system account: 200 iff every write succeeds, and then the `Deleted` state. Otherwise the first failing write decides the 500 message ("Failed to migrate comments", "Failed to migrate memos", "Failed to add migration comments", "Failed to update memo titles", "Failed to delete user"). The memos and comments keep exactly the writes of the steps before it, and the users are kept. |
| AdminUsers.FailedHandoverWritesNothing | app/api/admin/users/route.ts:81-88 | A deletion whose comment reassignment fails answers "Failed to migrate comments" and leaves users, memos and comments as they were. |
| AdminUsers.Delete | app/api/admin/users/route.ts:27-132 | 401, 403, 400 for a non-string or empty id, and 400 for self-deletion. None of these changes a user, memo or comment. Otherwise the outcome is that of `Cascade`, failure messages and tables included. |
| AdminUsers.DeletionKeepsSystemUser | app/api/admin/users/route.ts:67-69 | A deletion never removes the system account, which remains the one account named "system". |
| AdminCreate.ParseNewUser | app/api/admin/users/create/route.ts:25-41 | Accepted iff username (1..50), display name (1..12), password (1..200) and role (1..10) are valid after trimming, the password has at least 8 characters, and the role is admin or user. Errors come in the source's order. |
| AdminCreate.Registered | app/api/admin/users/create/route.ts:53-63 | The stored row keeps the given fields, records `now` as creation time, and holds a hash that verifies the password. |
| AdminCreate.Insert | app/api/admin/users/create/route.ts:43-69 | 400 when the lookup finds the name. 500 when the insert fails, or when the name is taken although the lookup missed it. 200 exactly when the name is free and the insert succeeds; it adds exactly one row under a fresh id and nothing else. |
| AdminCreate.ForAdmin | app/api/admin/users/create/route.ts:20-69 | The rate slot `admin-create:<id>` (6 per minute) is consumed before the payload is read. Then 429, the payload errors, 400 for a name the lookup finds, 500 for a failed insert. 200 exactly when the name is free and the insert succeeds. |
| AdminCreate.Post | app/api/admin/users/create/route.ts:10-70 | 401 and 403 leave the rate limiter untouched. For an admin, the outcomes are those of `ForAdmin`: rate slot, 429, 400, 400 duplicate, 500, and 200 exactly when the name is free and the insert succeeds. Only a 200 adds a user. |
| AdminCreate.RegistrationKeepsUsernamesUnique | app/api/admin/users/create/route.ts:43-63 | Adding a user under a free name keeps usernames unique. |
| AdminCreate.RegisteredUserCanSignIn | app/api/admin/users/create/route.ts:53-63 | The created account passes the login credential check with its username and password. |
| Memos.ParseListQuery | app/api/memos/route.ts:15-21 | Over-long, blank, unknown status and unknown category values are dropped, not rejected. `owned` means "1" or "true". `limit` is `clampNumber` of the parameter into 1..50, defaulting to 50. |
| Memos.Matching | app/api/memos/route.ts:31-49 | Keeps exactly the rows that satisfy every active filter. |
| Memos.Page | app/api/memos/route.ts:23-51 | At most `limit` rows. Each is a table row that satisfies every filter. They are ordered by updated_at descending. |
| Memos.PageComplete | app/api/memos/route.ts:23-51 | A qualifying row is missing from a page only if the page is full and the row is no newer than its last row. |
| Memos.NextCursor | app/api/memos/route.ts:56 | Set exactly when the page holds `limit` rows, and then equal to the last row's updated_at. |
| Memos.NextPageContinues | app/api/memos/route.ts:47-56 | The request for the next page matches exactly the qualifying rows this page left out, minus those whose updated_at equals the cursor. |
| Memos.PageOfTable | app/api/memos/route.ts:23-58 | A page read from a full listing of the table satisfies `IsPage` for that table. |
| Memos.Select | app/api/memos/route.ts:23-58 | 500 on a select error or an unparseable cursor. Otherwise 200 with a page of the table under the query's filters and the matching `nextCursor`. |
| Memos.Get | app/api/memos/route.ts:9-59 | 401 without a session, then `Select` with the caller as the `owned` author. |
| Memos.ParseNewMemo | app/api/memos/route.ts:67-74 | Accepted iff the trimmed title has 1..120 characters, the trimmed body 1..2000, and the category is one of the seven. Otherwise "Invalid payload". |
| Memos.Opened | app/api/memos/route.ts:76-85 | A new memo is open, unassigned and unsolved, with created_at = updated_at = now. |
| Memos.Insert | app/api/memos/route.ts:76-91 | 500 when the insert fails, with no change. Otherwise 201 with exactly one new row under a fresh id. |
| Memos.Create | app/api/memos/route.ts:67-91 | 400 for an invalid payload and 500 for a failed insert, both with no change. Otherwise one new open memo by the caller under a fresh id. |
| Memos.Post | app/api/memos/route.ts:61-92 | 401, then 400, then `Insert` with the caller as author. Only a 201 adds a memo. |
| Memos.CreatedMemoListedFirst | app/api/memos/route.ts:28 | When a memo is no older than any other, the unfiltered first page is non-empty and its first row is exactly as new as that memo. |
| Counts.SearchFilter | app/api/memos/counts/route.ts:15-27 | Only the category (when allowed) and `q` filter the counts. Status, owned and cursor are not read. |
| Counts.MatchingIds | app/api/memos/counts/route.ts:29-42 | The memos a filtered `count: 'exact'` select counts. |
| Counts.TallyOf | app/api/memos/counts/route.ts:29-53 | The four counts: all matches, then the same search narrowed to open, to solved, and to the caller's memos. |
| Counts.NarrowedSubset | app/api/memos/counts/route.ts:29-42 | Adding a condition never counts more memos. |
| Counts.StatusesPartition | app/api/memos/counts/route.ts:29-42 | No memo is counted as both open and solved. When every match is open or solved, the two counts cover all matches. |
| Counts.TallyBounds | app/api/memos/counts/route.ts:29-42 | open, solved and owned are each <= all, and open + solved <= all. Equality holds when every matching memo is open or solved. |
| Counts.Get | app/api/memos/counts/route.ts:8-54 | 401 without a session, 500 when any count fails, otherwise the four counts. |
| Middleware.AnyUnder | middleware.ts:20-22 | `some` over the list: true iff the path is one of the paths or lies below one. |
| Middleware.IsProtected | middleware.ts:20-22 | Protected iff the path equals '/', '/memos', '/account' or '/admin', or starts with one of them followed by '/'. |
| Middleware.LoginAndLookalikesUnprotected | middleware.ts:20-22 | '/login' and '/memosX' are not protected. '/memos/abc' is. |
| Middleware.Decide | middleware.ts:17-59 | No session on a protected path redirects to /login. A failed check redirects to /login with the cookie cleared on a protected path, and passes through with the cookie cleared on /login. A passed check on /login redirects to '/'. Everything else passes through. |
| Middleware.UncheckedIgnoresAuth | middleware.ts:30-58 | When no auth check runs, its result does not affect the decision. |
| Middleware.RedirectsDoNotLoop | middleware.ts:24-55 | A redirect goes to /login or '/', and never to the path it came from. |

## Left out

- The React pages and components. They hold UI state and formatting, and their client-side checks repeat the server rules modelled here.
- The Supabase client and PostgREST. Tables are maps, and each query is the map operation it performs.
- `%`, `_` and `*` inside `q`. They are `ilike` wildcards in the source (PostgREST reads `*` as `%`), but the model matches them literally.
- A `q` that breaks the `.or(...)` filter syntax. With commas or parentheses in `q`, the query fails in the source; the model does not.
- Unicode case folding. `ilike` matching folds only ASCII letters here.
- JavaScript `Number` floating point. Numbers are integers; `Number(...)` and `clampNumber` read only optional-sign decimal digits. Fractions, exponents, hex and `Infinity` are not modelled, so a fractional `limit` cannot occur.
- String length units. Lengths are counted in Dafny characters (Unicode scalar values), whereas JavaScript counts UTF-16 code units; the two differ for characters outside the Basic Multilingual Plane.
- Timestamp text. Timestamps are integers in milliseconds. The list cursor is the decimal text of such an integer, and any other cursor fails the select with 500, as an unparseable timestamp does in Postgres.
- bcrypt internals: salt, cost factor and timing. `Db.Hash` keeps the first 72 characters of the password, and two hashes are equal exactly when those are.
- Db.HashVerifies: bcrypt truncates at 72 bytes of the UTF-8 encoding, and the model at 72 characters. The two agree for ASCII passwords but not for passwords with multi-byte characters.
- The `author` object the memo select embeds, and the columns the selects project. Rows are returned whole.
- The middleware's matcher regex. `Middleware.Decide` covers every path the middleware receives.
- The `fetch` to `/api/auth/me`. It is the input `authOk`.
- Concurrency. The four count queries run concurrently in the source; here they are four independent faults. Requests interleaving with each other are not modelled.
- Foreign-key cascades. Deleting a user leaves that user's session rows in the table. `Auth.Resolve` treats a session whose user is gone as no session, so they cannot authenticate.
- `checkRateLimit`'s default arguments. Every caller passes both explicitly.
- Next.js's answer to an exception escaping a handler. It is a 500 whose error text is empty (`Login.Uncaught`); the page Next.js renders for it is not modelled.
- Process state and the system clock. `process.env` is the `Auth.Env` parameter and `Date.now()` is `now`.
- AdminUsers.Migrate: after a failed title update, some titles are already marked. The contract states the error, the comments table and that no user is removed, but not which memos were retitled (`AdminUsers.RetitleMemos` states that).
- Memos.IsPage: does not state that a page lists each row only once.
- Memos.Page: rows with equal `updated_at` keep the order of an arbitrary table listing. The database leaves their order unspecified as well.

=== FILE: admin_create.dfy ===
/** POST /api/admin/users/create (app/api/admin/users/create/route.ts): an admin registers an account. */
module AdminCreate {
  import opened Wrappers
  import opened Text
  import opened Validators
  import opened Db
  import opened Auth
  import RateLimit
  import Login
  import AdminUsers

  const Limit := 6
  const WindowMs := 60_000
  const MinPassword := 8

  datatype NewUser = NewUser(username: string, displayName: string, password: string, role: string)

  datatype Created = Created(user: AdminUsers.UserPublic)

  function RateKey(adminId: Id): string {
    "admin-create:" + adminId
  }

  predicate AllowedRole(role: string) {
    role == "admin" || role == "user"
  }

  /**
    The payload ladder: four trimmed fields within their limits (username 50,
    display name 12, password 200, role 10), then a password of at least 8
    characters, then a role of "admin" or "user".
   */
  function ParseNewUser(body: Body): (r: Result<NewUser>)
    ensures r.Ok? <==>
              && GetString(Field(body, "username"), 50).Some?
              && GetString(Field(body, "display_name"), 12).Some?
              && GetString(Field(body, "password"), 200).Some?
              && GetString(Field(body, "role"), 10).Some?
              && |GetString(Field(body, "password"), 200).value| >= MinPassword
              && AllowedRole(GetString(Field(body, "role"), 10).value)
    ensures r.Ok? ==>
              && r.value.username == Trim(Field(body, "username").s) && 1 <= |r.value.username| <= 50
              && r.value.displayName == Trim(Field(body, "display_name").s) && 1 <= |r.value.displayName| <= 12
              && r.value.password == Trim(Field(body, "password").s) && MinPassword <= |r.value.password| <= 200
              && AllowedRole(r.value.role)
    ensures r.Err? ==>
              r.message == if GetString(Field(body, "username"), 50).None? || GetString(Field(body, "display_name"), 12).None?
                              || GetString(Field(body, "password"), 200).None? || GetString(Field(body, "role"), 10).None?
                           then "Invalid payload"
                           else if |GetString(Field(body, "password"), 200).value| < MinPassword
                           then "Password must be at least 8 characters"
                           else "Invalid role"
  {
    var username := GetString(Field(body, "username"), 50);
    var displayName := GetString(Field(body, "display_name"), 12);
    var password := GetString(Field(body, "password"), 200);
    var role := GetString(Field(body, "role"), 10);
    if username.None? || displayName.None? || password.None? || role.None? then Err("Invalid payload")
    else if |password.value| < MinPassword then Err("Password must be at least 8 characters")
    else if !AllowedRole(role.value) then Err("Invalid role")
    else Ok(NewUser(username.value, displayName.value, password.value, role.value))
  }

  /** The row the insert stores: the password only as its hash, `created_at` defaulting to now. */
  function Registered(nu: NewUser, now: int): (u: User)
    ensures u.username == nu.username && u.displayName == nu.displayName && u.role == nu.role && u.createdAt == now
    ensures Verify(nu.password, u.passwordHash)
  {
    User(nu.username, nu.displayName, Hash(nu.password), nu.role, now)
  }

  /** The lookup finds exactly one account holding the name: the handler refuses with 400. */
  predicate Duplicate(users: map<Id, User>, nu: NewUser, fails: set<Call>) {
    LookupExistingUser !in fails && |UsersNamed(users, nu.username)| == 1
  }

  /** The name is free and the insert succeeds. */
  predicate Insertable(users: map<Id, User>, nu: NewUser, fails: set<Call>) {
    UsersNamed(users, nu.username) == {} && InsertUser !in fails
  }

  /**
    The lookup of an existing account and the insert. The lookup ignores its
    own errors (a failed or ambiguous `.maybeSingle()` reads as "no such user");
    the unique index on `username` then makes the insert fail.
   */
  method Insert(db: Database, nu: NewUser, now: int, fails: set<Call>) returns (resp: Response<Created>)
    modifies db`users
    ensures Duplicate(old(db.users), nu, fails) ==> resp == Fail(400, "Username already exists")
    ensures !Duplicate(old(db.users), nu, fails) ==>
              (InsertUser in fails || UsersNamed(old(db.users), nu.username) != {} <==> resp == Fail(500, "Failed to create user"))
    ensures resp.status == 200 <==> Insertable(old(db.users), nu, fails)
    ensures resp.status != 200 ==> db.users == old(db.users)
    ensures resp.status == 200 ==>
              && UsersNamed(old(db.users), nu.username) == {} && InsertUser !in fails
              && resp.body.Json? && resp.cookie.None?
              && var id := resp.body.value.user.id;
                 && id !in old(db.users)
                 && db.users == old(db.users)[id := Registered(nu, now)]
                 && resp.body.value.user == AdminUsers.Public(id, Registered(nu, now))
  {
    var existing := MaybeSingleUserNamed(db.users, nu.username);
    if LookupExistingUser !in fails && existing.Ok? && existing.value.Some? {
      assert |UsersNamed(db.users, nu.username)| == 1;
      return Fail(400, "Username already exists");
    }
    if existing.Ok? && existing.value.Some? {
      assert UsersNamed(db.users, nu.username) != {} by {
        assert existing.value.value in UsersNamed(db.users, nu.username);
      }
    }
    var row := Registered(nu, now);
    if InsertUser in fails || UsersNamed(db.users, nu.username) != {} {
      return Fail(500, "Failed to create user");
    }
    var id := NewId(db.users.Keys);
    db.users := db.users[id := row];
    resp := Response(200, Json(Created(AdminUsers.Public(id, row))), None);
  }

  /** The steps after the role check: rate limit on "admin-create:<id>" (6 per minute), payload, insert. */
  method ForAdmin(db: Database, limiter: RateLimit.RateLimiter, adminId: Id, body: Body, now: int, fails: set<Call>)
    returns (resp: Response<Created>)
    modifies limiter, db`users
    ensures limiter.store == RateLimit.Check(old(limiter.store), RateKey(adminId), Limit, WindowMs, now).store
    ensures !RateLimit.Check(old(limiter.store), RateKey(adminId), Limit, WindowMs, now).decision.allowed ==>
              resp == Fail(429, "Too many attempts")
    ensures (RateLimit.Check(old(limiter.store), RateKey(adminId), Limit, WindowMs, now).decision.allowed
             && ParseNewUser(body).Err?) ==> resp == Fail(400, ParseNewUser(body).message)
    ensures (RateLimit.Check(old(limiter.store), RateKey(adminId), Limit, WindowMs, now).decision.allowed
             && ParseNewUser(body).Ok?) ==>
              var nu := ParseNewUser(body).value;
              && (Duplicate(old(db.users), nu, fails) ==> resp == Fail(400, "Username already exists"))
              && (!Duplicate(old(db.users), nu, fails) && !Insertable(old(db.users), nu, fails) ==>
                    resp == Fail(500, "Failed to create user"))
              && (resp.status == 200 <==> Insertable(old(db.users), nu, fails))
    ensures resp.status != 200 ==> db.users == old(db.users)
    ensures resp.status == 200 ==>
              && ParseNewUser(body).Ok?
              && UsersNamed(old(db.users), ParseNewUser(body).value.username) == {}
              && resp.body.Json?
              && var id := resp.body.value.user.id;
                 && id !in old(db.users)
                 && db.users == old(db.users)[id := Registered(ParseNewUser(body).value, now)]
  {
    var rate := limiter.CheckRateLimit("admin-create:" + adminId, Limit, WindowMs, now);
    if !rate.allowed {
      return Fail(429, "Too many attempts");
    }
    var nu := ParseNewUser(body);
    if nu.Err? {
      return Fail(400, nu.message);
    }
    resp := Insert(db, nu.value, now, fails);
  }

  /** `POST /api/admin/users/create`. */
  method Post(db: Database, limiter: RateLimit.RateLimiter, cookie: Option<string>, body: Body, now: int, fails: set<Call>)
    returns (resp: Response<Created>)
    modifies limiter, db`users, db`sessions
    ensures db.sessions == SessionsAfterLookup(old(db.sessions), old(db.users), cookie, now, fails)
    ensures var found := Resolve(old(db.sessions), old(db.users), cookie, now, LookupSession in fails);
            && (!found.Active? ==> resp == Fail(401, "Unauthorized") && limiter.store == old(limiter.store))
            && (found.Active? && found.user.role != "admin" ==> resp == Fail(403, "Forbidden") && limiter.store == old(limiter.store))
            && (found.Active? && found.user.role == "admin" ==>
                  var rate := RateLimit.Check(old(limiter.store), RateKey(found.user.id), Limit, WindowMs, now);
                  && limiter.store == rate.store
                  && (!rate.decision.allowed ==> resp == Fail(429, "Too many attempts"))
                  && (rate.decision.allowed && ParseNewUser(body).Err? ==> resp == Fail(400, ParseNewUser(body).message))
                  && (rate.decision.allowed && ParseNewUser(body).Ok? ==>
                        var nu := ParseNewUser(body).value;
                        && (Duplicate(old(db.users), nu, fails) ==> resp == Fail(400, "Username already exists"))
                        && (!Duplicate(old(db.users), nu, fails) && !Insertable(old(db.users), nu, fails) ==>
                              resp == Fail(500, "Failed to create user"))
                        && (resp.status == 200 <==> Insertable(old(db.users), nu, fails))))
            && (resp.status != 200 ==> db.users == old(db.users))
            && (resp.status == 200 ==>
                  && found.Active? && found.user.role == "admin"
                  && ParseNewUser(body).Ok?
                  && UsersNamed(old(db.users), ParseNewUser(body).value.username) == {}
                  && resp.body.Json?
                  && resp.body.value.user.id !in old(db.users)
                  && db.users == old(db.users)[resp.body.value.user.id := Registered(ParseNewUser(body).value, now)])
  {
    var user := GetSessionUser(db, cookie, now, fails);
    if user.None? {
      return Fail(401, "Unauthorized");
    }
    if user.value.role != "admin" {
      return Fail(403, "Forbidden");
    }
    resp := ForAdmin(db, limiter, user.value.id, body, now, fails);
  }

  /** No user of `users` holds `name`. */
  lemma NameFree(users: map<Id, User>, name: string)
    requires UsersNamed(users, name) == {}
    ensures forall b :: b in users ==> users[b].username != name
  {
    forall b | b in users ensures users[b].username != name {
      assert b !in UsersNamed(users, name);
    }
  }

  /** Registering a name nobody holds keeps usernames unique. */
  lemma RegistrationKeepsUsernamesUnique(users: map<Id, User>, id: Id, row: User)
    requires UniqueUsernames(users) && id !in users && UsersNamed(users, row.username) == {}
    ensures UniqueUsernames(users[id := row])
  {
    NameFree(users, row.username);
  }

  /** The account just created signs in with the username and password it was given. */
  lemma RegisteredUserCanSignIn(users: map<Id, User>, id: Id, nu: NewUser, now: int)
    requires id !in users && UsersNamed(users, nu.username) == {}
    ensures Login.Authentic(users[id := Registered(nu, now)], Login.Credentials(nu.username, nu.password))
  {
    NameFree(users, nu.username);
    assert UsersNamed(users[id := Registered(nu, now)], nu.username) == {id};
  }
}

=== FILE: admin_users.dfy ===
/**
  GET and DELETE /api/admin/users (app/api/admin/users/route.ts): the admin
  user list, and deletion of a user whose memos and comments are handed to the
  sentinel "system" account.
 */
module AdminUsers {
  import opened Wrappers
  import opened Text
  import opened Validators
  import opened Db
  import opened Auth
  import Sorting

  const SystemUsername := "system"
  const MigratedMarker := "[MIGRATED]"

  datatype UserPublic = UserPublic(id: Id, username: string, displayName: string, role: string, createdAt: int)

  datatype Ack = Ack(ok: bool)

  function Public(id: Id, user: User): UserPublic {
    UserPublic(id, user.username, user.displayName, user.role, user.createdAt)
  }

  // ---------------------------------------------------------------- GET

  /** The rows in listing order, each without its password hash. */
  function Publics(rows: seq<Row<User>>): (r: seq<UserPublic>)
    ensures |r| == |rows|
    ensures forall i :: 0 <= i < |rows| ==> r[i] == Public(rows[i].id, rows[i].row)
  {
    seq(|rows|, i requires 0 <= i < |rows| => Public(rows[i].id, rows[i].row))
  }

  /** The user list: every row without its password hash, oldest account first. */
  function UsersByCreation(rows: seq<Row<User>>): (r: seq<UserPublic>)
    ensures Sorting.SortedBy(r, (u: UserPublic) => u.createdAt)
    ensures multiset(r) == multiset(Publics(rows))
    ensures |r| == |rows|
  {
    Sorting.SortBy(Publics(rows), (u: UserPublic) => u.createdAt)
  }

  lemma SameElements<T>(a: seq<T>, b: seq<T>)
    requires multiset(a) == multiset(b)
    ensures forall x :: x in a <==> x in b
  {
    forall x ensures x in a <==> x in b {
      assert x in a <==> x in multiset(a);
      assert x in b <==> x in multiset(b);
    }
  }

  /** The select behind the list: every user row, in creation order. */
  method ListByCreation(users: map<Id, User>) returns (list: seq<UserPublic>)
    ensures Sorting.SortedBy(list, (u: UserPublic) => u.createdAt)
    ensures |list| == |users|
    ensures forall u :: u in list ==> u.id in users && u == Public(u.id, users[u.id])
    ensures forall id :: id in users ==> Public(id, users[id]) in list
  {
    var rows := Rows(users);
    RowsCover(users, rows);
    list := UsersByCreation(rows);
    ghost var unsorted := Publics(rows);
    SameElements(list, unsorted);
    forall u | u in list ensures u.id in users && u == Public(u.id, users[u.id]) {
      var i :| 0 <= i < |unsorted| && unsorted[i] == u;
      assert rows[i] in rows;
    }
    forall id | id in users ensures Public(id, users[id]) in list {
      var i :| 0 <= i < |rows| && rows[i] == Row(id, users[id]);
      assert unsorted[i] == Public(id, users[id]);
    }
  }

  /** `GET /api/admin/users`. */
  method Get(db: Database, cookie: Option<string>, now: int, fails: set<Call>) returns (resp: Response<seq<UserPublic>>)
    modifies db`sessions
    ensures db.sessions == SessionsAfterLookup(old(db.sessions), db.users, cookie, now, fails)
    ensures var found := Resolve(old(db.sessions), db.users, cookie, now, LookupSession in fails);
            && (!found.Active? ==> resp == Fail(401, "Unauthorized"))
            && (found.Active? && found.user.role != "admin" ==> resp == Fail(403, "Forbidden"))
            && (found.Active? && found.user.role == "admin" && ListUsers in fails ==> resp == Fail(500, "Failed to load users"))
            && (found.Active? && found.user.role == "admin" && ListUsers !in fails ==>
                  && resp.status == 200 && resp.body.Json?
                  && Sorting.SortedBy(resp.body.value, (u: UserPublic) => u.createdAt)
                  && |resp.body.value| == |db.users|
                  && (forall u :: u in resp.body.value ==> u.id in db.users && u == Public(u.id, db.users[u.id]))
                  && (forall id :: id in db.users ==> Public(id, db.users[id]) in resp.body.value))
  {
    var user := Auth.GetSessionUser(db, cookie, now, fails);
    if user.None? {
      return Fail(401, "Unauthorized");
    }
    if user.value.role != "admin" {
      return Fail(403, "Forbidden");
    }
    if ListUsers in fails {
      return Fail(500, "Failed to load users");
    }
    var list := ListByCreation(db.users);
    resp := Response(200, Json(list), None);
  }

  /** A duplicate-free listing of a table has as many rows as the table. */
  lemma RowsCover<T>(table: map<Id, T>, rows: seq<Row<T>>)
    requires forall r :: r in rows ==> r.id in table && table[r.id] == r.row
    requires forall id :: id in table ==> Row(id, table[id]) in rows
    requires forall i, j :: 0 <= i < j < |rows| ==> rows[i].id != rows[j].id
    ensures |rows| == |table|
  {
    var ids := set r | r in rows :: r.id;
    assert ids == table.Keys;
    DistinctIdsCount(rows);
  }

  lemma {:induction false} DistinctIdsCount<T>(rows: seq<Row<T>>)
    requires forall i, j :: 0 <= i < j < |rows| ==> rows[i].id != rows[j].id
    ensures |set r | r in rows :: r.id| == |rows|
  {
    if rows != [] {
      var last := rows[|rows| - 1];
      var init := rows[..|rows| - 1];
      DistinctIdsCount(init);
      assert (set r | r in rows :: r.id) == (set r | r in init :: r.id) + {last.id};
      assert last.id !in (set r | r in init :: r.id);
    }
  }

  // ---------------------------------------------------------------- migration

  /** The comment added to each memo of a deleted user. */
  function MigrationNote(username: string): string {
    "Migrated from " + username + ". Original author removed."
  }

  /** The title a migrated memo ends up with: marked once, never twice. */
  function MigratedTitle(title: string): (r: string)
    ensures StartsWith(r, MigratedMarker)
    ensures StartsWith(title, MigratedMarker) ==> r == title
  {
    if StartsWith(title, MigratedMarker) then title
    else
      var marked := "[MIGRATED] " + title;
      MarkSurvivesTrim(marked);
      Trim(marked)
  }

  lemma MarkSurvivesTrim(marked: string)
    requires StartsWith(marked, "[MIGRATED] ")
    ensures StartsWith(Trim(marked), MigratedMarker)
  {
    assert !IsSpace(marked[0]);
    assert TrimStart(marked) == marked;
    var r := TrimEnd(marked);
    forall k | |r| <= k < |marked| ensures IsSpace(marked[k]) {
      assert marked[k] == marked[|r|..][k - |r|];
    }
    assert !IsSpace(marked[9]);
    assert r[..10] == marked[..10];
  }

  /** Re-running the migration leaves titles as they are. */
  lemma MigratedTitleIdempotent(title: string)
    ensures MigratedTitle(MigratedTitle(title)) == MigratedTitle(title)
  {
  }

  /** An untitled memo becomes "[MIGRATED]". */
  lemma MigratedEmptyTitle()
    ensures MigratedTitle("") == MigratedMarker
  {
    var marked := "[MIGRATED] ";
    assert !StartsWith("", MigratedMarker);
    assert marked == MigratedMarker + " " + [];
    assert AllSpace(" ");
    TrimPadded([], MigratedMarker, " ");
    assert [] + MigratedMarker + " " == marked;
  }

  /** A trimmed title that is not yet marked gets exactly "[MIGRATED] " in front of it. */
  lemma MigratedTrimmedTitle(title: string)
    requires title != [] && Trimmed(title) && !StartsWith(title, MigratedMarker)
    ensures MigratedTitle(title) == "[MIGRATED] " + title
  {
    var marked := "[MIGRATED] " + title;
    assert Trimmed(marked);
    assert [] + marked + [] == marked;
    TrimPadded([], marked, []);
  }

  /** The memos `target` authored. */
  function MemosOf(memos: map<Id, Memo>, target: Id): (r: map<Id, Memo>)
    ensures forall id :: id in r <==> id in memos && memos[id].authorId == target
    ensures forall id :: id in r ==> r[id] == memos[id]
  {
    map id | id in memos && memos[id].authorId == target :: memos[id]
  }

  /** Step 3 of the deletion: memos of `target` are handed to `sys`. */
  function ReassignedMemos(memos: map<Id, Memo>, target: Id, sys: Id): (r: map<Id, Memo>)
    ensures r.Keys == memos.Keys
    ensures forall id :: id in memos && memos[id].authorId == target ==> r[id] == memos[id].(authorId := sys)
    ensures forall id :: id in memos && memos[id].authorId != target ==> r[id] == memos[id]
  {
    map id | id in memos :: if memos[id].authorId == target then memos[id].(authorId := sys) else memos[id]
  }

  /** Step 2 of the deletion: comments of `target` are handed to `sys`. */
  function ReassignedComments(comments: map<Id, Comment>, target: Id, sys: Id): (r: map<Id, Comment>)
    ensures r.Keys == comments.Keys
    ensures forall k :: k in comments && comments[k].authorId == target ==> r[k] == comments[k].(authorId := sys)
    ensures forall k :: k in comments && comments[k].authorId != target ==> r[k] == comments[k]
  {
    map k | k in comments :: if comments[k].authorId == target then comments[k].(authorId := sys) else comments[k]
  }

  /** The title loop: the memos `ids` carry their migrated title. */
  function Retitled(memos: map<Id, Memo>, ids: set<Id>): (r: map<Id, Memo>)
    ensures r.Keys == memos.Keys
    ensures forall id :: id in memos && id in ids ==> r[id] == memos[id].(title := MigratedTitle(memos[id].title))
    ensures forall id :: id in memos && id !in ids ==> r[id] == memos[id]
  {
    map id | id in memos :: if id in ids then memos[id].(title := MigratedTitle(memos[id].title)) else memos[id]
  }

  /** The memos table after a complete deletion of `target`. */
  function MigratedMemos(memos: map<Id, Memo>, target: Id, sys: Id): (r: map<Id, Memo>)
    ensures r.Keys == memos.Keys
    ensures target != sys ==> forall id :: id in r ==> r[id].authorId != target
    ensures forall id :: id in memos && memos[id].authorId == target ==>
              r[id] == memos[id].(authorId := sys, title := MigratedTitle(memos[id].title))
    ensures forall id :: id in memos && memos[id].authorId != target ==> r[id] == memos[id]
  {
    Retitled(ReassignedMemos(memos, target, sys), MemosOf(memos, target).Keys)
  }

  /** Migrating twice changes no memo a second time. */
  lemma MigrationRerunIsNoOp(memos: map<Id, Memo>, target: Id, sys: Id)
    requires target != sys
    ensures MigratedMemos(MigratedMemos(memos, target, sys), target, sys) == MigratedMemos(memos, target, sys)
  {
  }

  /**
    `after` is `before` plus one new comment per memo of `memoIds`, each by `sys`,
    carrying `note`, not an answer, and stamped `now`.
   */
  ghost predicate MigrationCommentsAdded(before: map<Id, Comment>, after: map<Id, Comment>, memoIds: set<Id>,
                                         sys: Id, note: string, now: int) {
    && before.Keys <= after.Keys
    && (forall k :: k in before ==> after[k] == before[k])
    && (forall k :: k in after && k !in before ==>
          after[k] == Comment(after[k].memoId, sys, note, false, now, now) && after[k].memoId in memoIds)
    && (forall m :: m in memoIds ==> exists k :: k in after && k !in before && after[k].memoId == m)
    && (forall k1, k2 :: k1 in after && k1 !in before && k2 in after && k2 !in before && after[k1].memoId == after[k2].memoId ==> k1 == k2)
  }

  /** The result of a complete deletion of `target`, given the tables before it. */
  ghost predicate Deleted(users0: map<Id, User>, memos0: map<Id, Memo>, comments0: map<Id, Comment>,
                          users: map<Id, User>, memos: map<Id, Memo>, comments: map<Id, Comment>,
                          target: Id, sys: Id, now: int) {
    && target in users0
    && users == users0 - {target}
    && memos == MigratedMemos(memos0, target, sys)
    && MigrationCommentsAdded(ReassignedComments(comments0, target, sys), comments, MemosOf(memos0, target).Keys,
                              sys, MigrationNote(users0[target].username), now)
  }

  /** After a deletion no memo and no comment names the deleted user as author. */
  lemma DeletedLeavesNoOrphans(users0: map<Id, User>, memos0: map<Id, Memo>, comments0: map<Id, Comment>,
                               users: map<Id, User>, memos: map<Id, Memo>, comments: map<Id, Comment>,
                               target: Id, sys: Id, now: int)
    requires target != sys
    requires Deleted(users0, memos0, comments0, users, memos, comments, target, sys, now)
    ensures target !in users
    ensures forall id :: id in memos ==> memos[id].authorId != target
    ensures forall k :: k in comments ==> comments[k].authorId != target
  {
    var reassigned := ReassignedComments(comments0, target, sys);
    forall k | k in comments ensures comments[k].authorId != target {
      if k in reassigned {
        assert comments[k] == reassigned[k];
      }
    }
  }

  /** The ids of a list of rows. */
  function IdsOf(rows: seq<Row<Memo>>): (ids: set<Id>)
    ensures forall r :: r in rows ==> r.id in ids
    ensures forall id :: id in ids ==> exists r :: r in rows && r.id == id
  {
    set r | r in rows :: r.id
  }

  lemma IdsOfSnoc(rows: seq<Row<Memo>>, i: int)
    requires 0 <= i < |rows|
    requires forall j :: 0 <= j < i ==> rows[j].id != rows[i].id
    ensures IdsOf(rows[..i + 1]) == IdsOf(rows[..i]) + {rows[i].id}
    ensures rows[i].id !in IdsOf(rows[..i])
  {
    assert rows[..i + 1] == rows[..i] + [rows[i]];
    forall r | r in rows[..i] ensures r.id != rows[i].id {
      var j :| 0 <= j < i && rows[j] == r;
    }
  }

  /** One more migration comment, for a memo that had none yet. */
  lemma OneMoreComment(base: map<Id, Comment>, before: map<Id, Comment>, ids: set<Id>, sys: Id, note: string, now: int,
                       cid: Id, m: Id)
    requires MigrationCommentsAdded(base, before, ids, sys, note, now)
    requires cid !in before && m !in ids
    ensures MigrationCommentsAdded(base, before[cid := Comment(m, sys, note, false, now, now)], ids + {m}, sys, note, now)
  {
    var after := before[cid := Comment(m, sys, note, false, now, now)];
    forall x | x in ids + {m} ensures exists k :: k in after && k !in base && after[k].memoId == x {
      if x == m {
        assert cid in after && cid !in base && after[cid].memoId == x;
      } else {
        var k :| k in before && k !in base && before[k].memoId == x;
        assert k in after && after[k].memoId == x;
      }
    }
  }

  /** Adds the migration comments, one for each listed memo. */
  method AddMigrationComments(db: Database, rows: seq<Row<Memo>>, sys: Id, note: string, now: int)
    requires forall i, j :: 0 <= i < j < |rows| ==> rows[i].id != rows[j].id
    modifies db`comments
    ensures MigrationCommentsAdded(old(db.comments), db.comments, IdsOf(rows), sys, note, now)
  {
    var i := 0;
    while i < |rows|
      invariant 0 <= i <= |rows|
      invariant MigrationCommentsAdded(old(db.comments), db.comments, IdsOf(rows[..i]), sys, note, now)
    {
      var cid := NewId(db.comments.Keys);
      IdsOfSnoc(rows, i);
      OneMoreComment(old(db.comments), db.comments, IdsOf(rows[..i]), sys, note, now, cid, rows[i].id);
      db.comments := db.comments[cid := Comment(rows[i].id, sys, note, false, now, now)];
      i := i + 1;
    }
    assert rows[..|rows|] == rows;
  }

  /** One step of the title loop: marking `rows[i]` extends the marked set by its id. */
  lemma RetitleStep(memos: map<Id, Memo>, rows: seq<Row<Memo>>, i: int, current: map<Id, Memo>)
    requires 0 <= i < |rows|
    requires forall j, k :: 0 <= j < k < |rows| ==> rows[j].id != rows[k].id
    requires forall r :: r in rows ==> r.id in memos && memos[r.id].title == r.row.title
    requires current == Retitled(memos, IdsOf(rows[..i]))
    ensures rows[i].id in current
    ensures !StartsWith(rows[i].row.title, MigratedMarker) ==>
              current[rows[i].id := current[rows[i].id].(title := MigratedTitle(rows[i].row.title))]
                == Retitled(memos, IdsOf(rows[..i + 1]))
    ensures StartsWith(rows[i].row.title, MigratedMarker) ==> current == Retitled(memos, IdsOf(rows[..i + 1]))
  {
    var id := rows[i].id;
    assert rows[i] in rows;
    IdsOfSnoc(rows, i);
    var before := IdsOf(rows[..i]);
    var after := IdsOf(rows[..i + 1]);
    var next := Retitled(memos, after);
    assert current[id] == memos[id];
    var marked := current[id := current[id].(title := MigratedTitle(rows[i].row.title))];
    assert marked.Keys == next.Keys;
    forall x | x in memos ensures next[x] == marked[x] {
      if x == id {
        assert x in after;
      } else if x in before {
        assert x in after;
      } else {
        assert x !in after;
      }
    }
    assert marked == next;
    if StartsWith(rows[i].row.title, MigratedMarker) {
      assert MigratedTitle(rows[i].row.title) == rows[i].row.title;
      assert marked == current;
    }
  }

  /** Every title update the loop issues for `rows` succeeds. */
  predicate UpdatesSucceed(rows: seq<Row<Memo>>, fails: set<Call>) {
    forall r :: r in rows && !StartsWith(r.row.title, MigratedMarker) ==> UpdateTitle(r.id) !in fails
  }

  lemma UpdatesSucceedSnoc(rows: seq<Row<Memo>>, i: int, fails: set<Call>)
    requires 0 <= i < |rows|
    ensures UpdatesSucceed(rows[..i + 1], fails) <==>
              UpdatesSucceed(rows[..i], fails) && (StartsWith(rows[i].row.title, MigratedMarker) || UpdateTitle(rows[i].id) !in fails)
  {
    assert rows[..i + 1] == rows[..i] + [rows[i]];
  }

  /** `rows[k]` is the first row whose title update is issued and fails. */
  predicate FirstFailedUpdate(rows: seq<Row<Memo>>, fails: set<Call>, k: int) {
    && 0 <= k < |rows|
    && UpdatesSucceed(rows[..k], fails)
    && !StartsWith(rows[k].row.title, MigratedMarker) && UpdateTitle(rows[k].id) in fails
  }

  /** The title loop: marks each listed memo, stopping at the first failing update. */
  method RetitleMemos(db: Database, rows: seq<Row<Memo>>, fails: set<Call>) returns (ok: bool)
    requires forall i, j :: 0 <= i < j < |rows| ==> rows[i].id != rows[j].id
    requires forall r :: r in rows ==> r.id in db.memos && db.memos[r.id].title == r.row.title
    modifies db`memos
    ensures ok <==> UpdatesSucceed(rows, fails)
    ensures ok ==> db.memos == Retitled(old(db.memos), IdsOf(rows))
    ensures !ok ==> exists k :: FirstFailedUpdate(rows, fails, k) && db.memos == Retitled(old(db.memos), IdsOf(rows[..k]))
    ensures db.memos.Keys == old(db.memos).Keys
  {
    var i := 0;
    while i < |rows|
      invariant 0 <= i <= |rows|
      invariant db.memos == Retitled(old(db.memos), IdsOf(rows[..i]))
      invariant UpdatesSucceed(rows[..i], fails)
    {
      var memo := rows[i];
      RetitleStep(old(db.memos), rows, i, db.memos);
      UpdatesSucceedSnoc(rows, i, fails);
      var title := memo.row.title;
      if !StartsWith(title, MigratedMarker) {
        var nextTitle := MigratedTitle(title);
        if UpdateTitle(memo.id) in fails {
          assert memo in rows;
          assert FirstFailedUpdate(rows, fails, i);
          return false;
        }
        db.memos := db.memos[memo.id := db.memos[memo.id].(title := nextTitle)];
      }
      i := i + 1;
    }
    assert rows[..|rows|] == rows;
    ok := true;
  }

  // ---------------------------------------------------------------- DELETE

  /** `rows` lists every memo `target` authored, each once, as stored. */
  ghost predicate ListsMemosOf(rows: seq<Row<Memo>>, memos: map<Id, Memo>, target: Id) {
    && (forall i, j :: 0 <= i < j < |rows| ==> rows[i].id != rows[j].id)
    && (forall r :: r in rows ==> r.id in memos && memos[r.id].authorId == target && memos[r.id] == r.row)
    && (forall id :: id in memos && memos[id].authorId == target ==> Row(id, memos[id]) in rows)
  }

  lemma ListedIds(rows: seq<Row<Memo>>, memos: map<Id, Memo>, target: Id)
    requires ListsMemosOf(rows, memos, target)
    ensures IdsOf(rows) == MemosOf(memos, target).Keys
    ensures rows == [] <==> MemosOf(memos, target) == map[]
  {
    if rows != [] {
      assert rows[0] in rows;
      assert rows[0].id in MemosOf(memos, target);
    }
  }

  /** Every title update of the loop over `target`'s memos succeeds. */
  predicate TitlesUpdatable(memos: map<Id, Memo>, target: Id, fails: set<Call>) {
    forall id :: id in memos && memos[id].authorId == target && !StartsWith(memos[id].title, MigratedMarker) ==>
      UpdateTitle(id) !in fails
  }

  lemma TitlesListed(rows: seq<Row<Memo>>, memos: map<Id, Memo>, target: Id, fails: set<Call>)
    requires ListsMemosOf(rows, memos, target)
    ensures TitlesUpdatable(memos, target, fails) <==> UpdatesSucceed(rows, fails)
  {
    forall id | id in memos && memos[id].authorId == target ensures Row(id, memos[id]) in rows {
    }
  }

  /** The hand-over writes before the title loop all succeed. */
  predicate HandoverSucceeds(memos: map<Id, Memo>, target: Id, fails: set<Call>) {
    && MigrateComments !in fails
    && MigrateMemos !in fails
    && (MemosOf(memos, target) == map[] || InsertMigrationComments !in fails)
  }

  /** Every write of the deletion of `target` succeeds, given its memos before the deletion. */
  predicate MigrationSucceeds(memos: map<Id, Memo>, target: Id, fails: set<Call>) {
    && HandoverSucceeds(memos, target, fails)
    && TitlesUpdatable(memos, target, fails)
    && DeleteUserRow !in fails
  }

  /**
    What each failing write of the deletion answers and leaves in the memos and
    comments tables: the first failing step decides the message, and the steps
    before it keep their writes.
   */
  ghost predicate StepOutcomes(memos0: map<Id, Memo>, comments0: map<Id, Comment>,
                               memos: map<Id, Memo>, comments: map<Id, Comment>,
                               target: Id, sys: Id, note: string, now: int, fails: set<Call>, resp: Response<Ack>) {
    && (MigrateComments in fails ==>
          resp == Fail(500, "Failed to migrate comments") && memos == memos0 && comments == comments0)
    && (MigrateComments !in fails && MigrateMemos in fails ==>
          && resp == Fail(500, "Failed to migrate memos")
          && memos == memos0 && comments == ReassignedComments(comments0, target, sys))
    && (MigrateComments !in fails && MigrateMemos !in fails && !HandoverSucceeds(memos0, target, fails) ==>
          && resp == Fail(500, "Failed to add migration comments")
          && memos == ReassignedMemos(memos0, target, sys)
          && comments == ReassignedComments(comments0, target, sys))
    // past the hand-over the comments table is final
    && (HandoverSucceeds(memos0, target, fails) ==>
          MigrationCommentsAdded(ReassignedComments(comments0, target, sys), comments, MemosOf(memos0, target).Keys, sys, note, now))
    && (HandoverSucceeds(memos0, target, fails) && !TitlesUpdatable(memos0, target, fails) ==>
          resp == Fail(500, "Failed to update memo titles"))
    && (HandoverSucceeds(memos0, target, fails) && TitlesUpdatable(memos0, target, fails) && DeleteUserRow in fails ==>
          resp == Fail(500, "Failed to delete user") && memos == MigratedMemos(memos0, target, sys))
  }

  /** Steps 2 to 4 of the deletion: comments and memos go to `sys`, each memo gets a note. */
  method Handover(db: Database, target: Id, sys: Id, rows: seq<Row<Memo>>, note: string, now: int, fails: set<Call>)
    returns (error: Option<string>)
    requires ListsMemosOf(rows, db.memos, target)
    modifies db`memos, db`comments
    ensures error.None? <==> HandoverSucceeds(old(db.memos), target, fails)
    ensures error.None? ==>
              && db.memos == ReassignedMemos(old(db.memos), target, sys)
              && MigrationCommentsAdded(ReassignedComments(old(db.comments), target, sys), db.comments,
                                        MemosOf(old(db.memos), target).Keys, sys, note, now)
    ensures MigrateComments in fails ==>
              error == Some("Failed to migrate comments") && db.memos == old(db.memos) && db.comments == old(db.comments)
    ensures MigrateComments !in fails && MigrateMemos in fails ==>
              && error == Some("Failed to migrate memos")
              && db.memos == old(db.memos) && db.comments == ReassignedComments(old(db.comments), target, sys)
    ensures MigrateComments !in fails && MigrateMemos !in fails && error.Some? ==>
              && error == Some("Failed to add migration comments")
              && db.memos == ReassignedMemos(old(db.memos), target, sys)
              && db.comments == ReassignedComments(old(db.comments), target, sys)
  {
    ListedIds(rows, db.memos, target);
    if MigrateComments in fails {
      return Some("Failed to migrate comments");
    }
    db.comments := ReassignedComments(db.comments, target, sys);
    if MigrateMemos in fails {
      return Some("Failed to migrate memos");
    }
    db.memos := ReassignedMemos(db.memos, target, sys);
    if rows != [] {
      if InsertMigrationComments in fails {
        return Some("Failed to add migration comments");
      }
      AddMigrationComments(db, rows, sys, note, now);
    }
    error := None;
  }

  /** Steps 5 and 6 of the deletion: mark the titles, then drop the user row. */
  method Finish(db: Database, target: Id, rows: seq<Row<Memo>>, fails: set<Call>) returns (resp: Response<Ack>)
    requires forall i, j :: 0 <= i < j < |rows| ==> rows[i].id != rows[j].id
    requires forall r :: r in rows ==> r.id in db.memos && db.memos[r.id].title == r.row.title
    modifies db`users, db`memos
    ensures resp.status == 200 <==> UpdatesSucceed(rows, fails) && DeleteUserRow !in fails
    ensures !UpdatesSucceed(rows, fails) ==> resp == Fail(500, "Failed to update memo titles")
    ensures UpdatesSucceed(rows, fails) ==> db.memos == Retitled(old(db.memos), IdsOf(rows))
    ensures UpdatesSucceed(rows, fails) && DeleteUserRow in fails ==> resp == Fail(500, "Failed to delete user")
    ensures resp.status == 200 ==> resp == Response(200, Json(Ack(true)), None) && db.users == old(db.users) - {target}
    ensures resp.status != 200 ==> db.users == old(db.users)
  {
    var ok := RetitleMemos(db, rows, fails);
    if !ok {
      return Fail(500, "Failed to update memo titles");
    }
    if DeleteUserRow in fails {
      return Fail(500, "Failed to delete user");
    }
    db.users := db.users - {target};
    resp := Response(200, Json(Ack(true)), None);
  }

  /** Steps 2 to 6 of the deletion: hand over comments and memos, note and mark them, drop the user. */
  method Migrate(db: Database, target: Id, sys: Id, rows: seq<Row<Memo>>, now: int, fails: set<Call>)
    returns (resp: Response<Ack>)
    requires target in db.users && target != sys
    requires ListsMemosOf(rows, db.memos, target)
    modifies db`users, db`memos, db`comments
    ensures resp.status == 200 <==> MigrationSucceeds(old(db.memos), target, fails)
    ensures resp.status == 200 ==>
              && resp == Response(200, Json(Ack(true)), None)
              && Deleted(old(db.users), old(db.memos), old(db.comments), db.users, db.memos, db.comments, target, sys, now)
    ensures resp.status != 200 ==> db.users == old(db.users)
    ensures StepOutcomes(old(db.memos), old(db.comments), db.memos, db.comments, target, sys,
                         MigrationNote(old(db.users)[target].username), now, fails, resp)
  {
    TitlesListed(rows, db.memos, target, fails);
    ListedIds(rows, db.memos, target);
    ghost var memos0 := db.memos;
    var error := Handover(db, target, sys, rows, MigrationNote(db.users[target].username), now, fails);
    if error.Some? {
      return Fail(500, error.value);
    }
    assert db.memos == ReassignedMemos(memos0, target, sys);
    assert forall r :: r in rows ==> r.id in db.memos && db.memos[r.id].title == r.row.title;
    resp := Finish(db, target, rows, fails);
    if UpdatesSucceed(rows, fails) {
      assert db.memos == MigratedMemos(memos0, target, sys);
    }
  }

  /** The account named "system", when exactly one exists (the lookup fails otherwise). */
  ghost function SystemUser(users: map<Id, User>): (r: Option<Id>)
    ensures r.Some? <==> |UsersNamed(users, SystemUsername)| == 1
    ensures r.Some? ==> UsersNamed(users, SystemUsername) == {r.value}
  {
    var named := UsersNamed(users, SystemUsername);
    if |named| == 1 then
      var id :| id in named;
      assert |named - {id}| == 0;
      Some(id)
    else None
  }

  /** The refusal the deletion of `target` meets before it writes anything, if any. */
  ghost function Refusal(users: map<Id, User>, target: Id, fails: set<Call>): Option<Response<Ack>> {
    if LoadSystemUser in fails || SystemUser(users).None? then Some(Fail(500, "System user not found"))
    else if LoadTarget in fails || target !in users then Some(Fail(404, "User not found"))
    else if users[target].username == SystemUsername then Some(Fail(400, "Cannot delete system user"))
    else if LoadTargetMemos in fails then Some(Fail(500, "Failed to load user memos"))
    else None
  }

  /** What a deletion of `target` does to the three tables, from the checks on. */
  ghost predicate DeleteOutcome(users0: map<Id, User>, memos0: map<Id, Memo>, comments0: map<Id, Comment>,
                                users: map<Id, User>, memos: map<Id, Memo>, comments: map<Id, Comment>,
                                target: Id, now: int, fails: set<Call>, resp: Response<Ack>) {
    var refusal := Refusal(users0, target, fails);
    && (refusal.Some? ==> resp == refusal.value && users == users0 && memos == memos0 && comments == comments0)
    && (refusal.None? ==>
          && target != SystemUser(users0).value
          && (resp.status == 200 <==> MigrationSucceeds(memos0, target, fails))
          && (resp.status == 200 ==>
                && resp == Response(200, Json(Ack(true)), None)
                && Deleted(users0, memos0, comments0, users, memos, comments, target, SystemUser(users0).value, now))
          && (resp.status != 200 ==> resp.status == 500 && users == users0)
          && StepOutcomes(memos0, comments0, memos, comments, target, SystemUser(users0).value,
                          MigrationNote(users0[target].username), now, fails, resp))
  }

  /** The deletion of `target` from the system-user lookup on. */
  method Cascade(db: Database, target: Id, now: int, fails: set<Call>) returns (resp: Response<Ack>)
    modifies db`users, db`memos, db`comments
    ensures DeleteOutcome(old(db.users), old(db.memos), old(db.comments), db.users, db.memos, db.comments,
                          target, now, fails, resp)
  {
    var system := MaybeSingleUserNamed(db.users, SystemUsername);
    if LoadSystemUser in fails || !system.Ok? || system.value.None? {
      return Fail(500, "System user not found");
    }
    var sys := system.value.value;
    if LoadTarget in fails || target !in db.users {
      return Fail(404, "User not found");
    }
    if db.users[target].username == SystemUsername {
      return Fail(400, "Cannot delete system user");
    }
    if LoadTargetMemos in fails {
      return Fail(500, "Failed to load user memos");
    }
    assert sys in UsersNamed(db.users, SystemUsername);
    var rows := Rows(MemosOf(db.memos, target));
    resp := Migrate(db, target, sys, rows, now, fails);
  }

  /** `DELETE /api/admin/users`. */
  method Delete(db: Database, cookie: Option<string>, body: Body, now: int, fails: set<Call>) returns (resp: Response<Ack>)
    modifies db`sessions, db`users, db`memos, db`comments
    ensures db.sessions == SessionsAfterLookup(old(db.sessions), old(db.users), cookie, now, fails)
    ensures var found := Resolve(old(db.sessions), old(db.users), cookie, now, LookupSession in fails);
            var id := Field(body, "id");
            var untouched := db.users == old(db.users) && db.memos == old(db.memos) && db.comments == old(db.comments);
            if !found.Active? then resp == Fail(401, "Unauthorized") && untouched
            else if found.user.role != "admin" then resp == Fail(403, "Forbidden") && untouched
            else if !id.Str? || id.s == [] then resp == Fail(400, "Invalid payload") && untouched
            else if id.s == found.user.id then resp == Fail(400, "Cannot delete your own account") && untouched
            else DeleteOutcome(old(db.users), old(db.memos), old(db.comments), db.users, db.memos, db.comments,
                               id.s, now, fails, resp)
  {
    var user := Auth.GetSessionUser(db, cookie, now, fails);
    if user.None? {
      return Fail(401, "Unauthorized");
    }
    if user.value.role != "admin" {
      return Fail(403, "Forbidden");
    }
    var id := Field(body, "id");
    if !id.Str? || id.s == [] {
      return Fail(400, "Invalid payload");
    }
    if id.s == user.value.id {
      return Fail(400, "Cannot delete your own account");
    }
    resp := Cascade(db, id.s, now, fails);
  }

  /** A deletion never removes the system account, which stays the one "system" account. */
  lemma DeletionKeepsSystemUser(users0: map<Id, User>, memos0: map<Id, Memo>, comments0: map<Id, Comment>,
                                users: map<Id, User>, memos: map<Id, Memo>, comments: map<Id, Comment>,
                                target: Id, now: int, fails: set<Call>, resp: Response<Ack>)
    requires DeleteOutcome(users0, memos0, comments0, users, memos, comments, target, now, fails, resp)
    requires SystemUser(users0).Some?
    ensures SystemUser(users) == SystemUser(users0)
  {
    if Refusal(users0, target, fails).None? && resp.status == 200 {
      assert UsersNamed(users, SystemUsername) == UsersNamed(users0, SystemUsername);
    }
  }

  /** A deletion whose comment hand-over fails has written nothing and says so. */
  lemma FailedHandoverWritesNothing(users0: map<Id, User>, memos0: map<Id, Memo>, comments0: map<Id, Comment>,
                                    users: map<Id, User>, memos: map<Id, Memo>, comments: map<Id, Comment>,
                                    target: Id, now: int, fails: set<Call>, resp: Response<Ack>)
    requires DeleteOutcome(users0, memos0, comments0, users, memos, comments, target, now, fails, resp)
    requires Refusal(users0, target, fails).None? && MigrateComments in fails
    ensures resp == Fail(500, "Failed to migrate comments")
    ensures users == users0 && memos == memos0 && comments == comments0
  {
  }
}

=== FILE: auth.dfy ===
/**
  Session resolution and cookie settings of lib/auth.ts: a cookie names a
  session row, the row names a user, and the row is live only strictly before
  its expiry instant.
 */
module Auth {
  import opened Wrappers
  import opened Text
  import opened Db

  /** The identity a live session yields. */
  datatype SessionUser = SessionUser(id: Id, username: string, displayName: string, role: string)

  /** The environment variables the code reads: APP_COOKIE_NAME, APP_SESSION_DAYS and NODE_ENV == 'production'. */
  datatype Env = Env(cookieName: Option<string>, sessionDays: Option<string>, production: bool)

  const MsPerDay := 86_400_000
  const SecondsPerDay := 86_400

  function Identity(id: Id, user: User): SessionUser {
    SessionUser(id, user.username, user.displayName, user.role)
  }

  /** `getCookieName()`: the configured name, or "sid" when it is unset or empty. */
  function CookieName(env: Env): (name: string)
    ensures name != []
    ensures env.cookieName.Some? && env.cookieName.value != [] ==> name == env.cookieName.value
    ensures env.cookieName.None? || env.cookieName.value == [] ==> name == "sid"
  {
    if env.cookieName.Some? && env.cookieName.value != [] then env.cookieName.value else "sid"
  }

  /** `getSessionDays()`: a positive number of days, 14 unless a positive number is configured. */
  function SessionDays(env: Env): (days: int)
    ensures days > 0
    ensures env.sessionDays.None? || env.sessionDays.value == [] ==> days == 14
    ensures env.sessionDays.Some? && env.sessionDays.value != [] ==>
              var parsed := StringToNumber(env.sessionDays.value);
              days == if parsed.Some? && parsed.value > 0 then parsed.value else 14
  {
    var raw := env.sessionDays;
    var days := if raw.Some? && raw.value != [] then StringToNumber(raw.value) else Some(14);
    if days.Some? && days.value > 0 then days.value else 14
  }

  /** `getSessionCookieOptions()`. */
  function SessionCookieOptions(env: Env): (o: CookieOptions)
    ensures o.httpOnly && o.sameSite == "lax" && o.path == "/" && o.secure == env.production
    ensures o.maxAge == SessionDays(env) * SecondsPerDay && o.maxAge >= SecondsPerDay
  {
    CookieOptions(true, env.production, "lax", "/", SessionDays(env) * SecondsPerDay)
  }

  /** The cookie the logout and change-password responses set: empty value, maximum age 0. */
  function ClearedSessionCookie(env: Env): (c: SetCookie)
    ensures c.name == CookieName(env) && c.value == [] && c.options.maxAge == 0
    ensures c.options.httpOnly && c.options.sameSite == "lax" && c.options.path == "/" && c.options.secure == env.production
  {
    SetCookie(CookieName(env), "", SessionCookieOptions(env).(maxAge := 0))
  }

  /** A session row is live at `now` when its expiry parses and lies strictly after `now`. */
  predicate Live(session: Session, now: int) {
    session.expiresAt.Some? && now < session.expiresAt.value
  }

  /** What resolving a cookie finds. */
  datatype Lookup = NoCookie | NoSession | Expired | Active(user: SessionUser)

  /**
    The decision of `getSessionUser()` for the cookie value `cookie`, where
    `lookupFails` says the session select returned an error.
   */
  function Resolve(sessions: map<Id, Session>, users: map<Id, User>, cookie: Option<string>, now: int, lookupFails: bool): (r: Lookup)
    ensures cookie.None? || cookie.value == [] ==> r == NoCookie
    ensures r.Active? <==>
              && cookie.Some? && cookie.value != [] && cookie.value in sessions && !lookupFails
              && sessions[cookie.value].userId in users && Live(sessions[cookie.value], now)
    ensures r == Expired <==>
              && cookie.Some? && cookie.value != [] && cookie.value in sessions && !lookupFails
              && sessions[cookie.value].userId in users && !Live(sessions[cookie.value], now)
    ensures r.Active? ==>
              var uid := sessions[cookie.value].userId;
              r.user == Identity(uid, users[uid])
  {
    if cookie.None? || cookie.value == [] then NoCookie
    else if lookupFails || cookie.value !in sessions then NoSession
    else
      var session := sessions[cookie.value];
      if session.userId !in users then NoSession
      else if !Live(session, now) then Expired
      else Active(Identity(session.userId, users[session.userId]))
  }

  /** A session expiring exactly at `now` no longer authenticates. */
  lemma ExpiryInstantIsExpired(sessions: map<Id, Session>, users: map<Id, User>, sid: Id, now: int)
    requires sid != [] && sid in sessions && sessions[sid].userId in users
    requires sessions[sid].expiresAt == Some(now)
    ensures Resolve(sessions, users, Some(sid), now, false) == Expired
  {
  }

  /** The sessions table after a lookup: the row of an expired session is deleted unless that delete fails. */
  function SessionsAfterLookup(sessions: map<Id, Session>, users: map<Id, User>, cookie: Option<string>, now: int,
                               fails: set<Call>): (after: map<Id, Session>)
    ensures after == sessions || (cookie.Some? && after == sessions - {cookie.value})
    ensures Resolve(sessions, users, cookie, now, LookupSession in fails) != Expired ==> after == sessions
    ensures Resolve(sessions, users, cookie, now, LookupSession in fails) == Expired ==>
              after == if DeleteExpiredSession in fails then sessions else sessions - {cookie.value}
  {
    if Resolve(sessions, users, cookie, now, LookupSession in fails) == Expired && DeleteExpiredSession !in fails
    then sessions - {cookie.value}
    else sessions
  }

  /** `getSessionUser()`: resolves the cookie and deletes the row of an expired session. */
  method GetSessionUser(db: Database, cookie: Option<string>, now: int, fails: set<Call>) returns (user: Option<SessionUser>)
    modifies db`sessions
    ensures var found := Resolve(old(db.sessions), db.users, cookie, now, LookupSession in fails);
            user == (if found.Active? then Some(found.user) else None)
    ensures db.sessions == SessionsAfterLookup(old(db.sessions), db.users, cookie, now, fails)
  {
    if cookie.None? || cookie.value == [] {
      return None;
    }
    if LookupSession in fails || cookie.value !in db.sessions {
      return None;
    }
    var session := db.sessions[cookie.value];
    if session.userId !in db.users {
      return None;
    }
    if session.expiresAt.None? || session.expiresAt.value <= now {
      if DeleteExpiredSession !in fails {
        db.sessions := db.sessions - {cookie.value};
      }
      return None;
    }
    var row := db.users[session.userId];
    user := Some(SessionUser(session.userId, row.username, row.displayName, row.role));
  }
}

=== FILE: change_password.dfy ===
/** POST /api/auth/change-password (app/api/auth/change-password/route.ts). */
module ChangePassword {
  import opened Wrappers
  import opened Text
  import opened Validators
  import opened Db
  import opened Auth
  import RateLimit

  const Limit := 6
  const WindowMs := 60_000
  const MinLength := 8

  datatype Ack = Ack(ok: bool)

  datatype Change = Change(current: string, next: string)

  function RateKey(uid: Id): string {
    "pwd:" + uid
  }

  /**
    The payload ladder: all three fields present (trimmed, 1..200 characters),
    then the new password at least 8 characters, then equal to its confirmation.
   */
  function ParseChange(body: Body): (r: Result<Change>)
    ensures r.Ok? <==>
              && GetString(Field(body, "current_password"), 200).Some?
              && GetString(Field(body, "new_password"), 200).Some?
              && GetString(Field(body, "confirm_password"), 200).Some?
              && |GetString(Field(body, "new_password"), 200).value| >= MinLength
              && GetString(Field(body, "new_password"), 200) == GetString(Field(body, "confirm_password"), 200)
    ensures r.Ok? ==> r.value.current == GetString(Field(body, "current_password"), 200).value
                      && r.value.next == Trim(Field(body, "new_password").s)
                      && r.value.next == Trim(Field(body, "confirm_password").s)
                      && MinLength <= |r.value.next| <= 200
    ensures r.Err? ==>
              r.message == if GetString(Field(body, "current_password"), 200).None?
                              || GetString(Field(body, "new_password"), 200).None?
                              || GetString(Field(body, "confirm_password"), 200).None?
                           then "Invalid payload"
                           else if |GetString(Field(body, "new_password"), 200).value| < MinLength
                           then "Password must be at least 8 characters"
                           else "Passwords do not match"
  {
    var current := GetString(Field(body, "current_password"), 200);
    var next := GetString(Field(body, "new_password"), 200);
    var confirm := GetString(Field(body, "confirm_password"), 200);
    if current.None? || next.None? || confirm.None? then Err("Invalid payload")
    else if |next.value| < MinLength then Err("Password must be at least 8 characters")
    else if next.value != confirm.value then Err("Passwords do not match")
    else Ok(Change(current.value, next.value))
  }

  /** The sessions table with every session of `uid` removed. */
  function WithoutSessionsOf(sessions: map<Id, Session>, uid: Id): (r: map<Id, Session>)
    ensures forall sid :: sid in r <==> sid in sessions && sessions[sid].userId != uid
    ensures forall sid :: sid in r ==> r[sid] == sessions[sid]
  {
    map sid | sid in sessions && sessions[sid].userId != uid :: sessions[sid]
  }

  /** The users table with the password hash of `uid` replaced by a hash of `password`. */
  function WithPassword(users: map<Id, User>, uid: Id, password: string): (r: map<Id, User>)
    requires uid in users
    ensures r.Keys == users.Keys && Verify(password, r[uid].passwordHash)
    ensures r[uid].username == users[uid].username && r[uid].displayName == users[uid].displayName
            && r[uid].role == users[uid].role && r[uid].createdAt == users[uid].createdAt
    ensures forall other :: other in users && other != uid ==> r[other] == users[other]
  {
    users[uid := users[uid].(passwordHash := Hash(password))]
  }

  /** The steps after the payload check: user row, current password, hash update, session purge. */
  method Apply(db: Database, env: Env, uid: Id, change: Change, fails: set<Call>) returns (resp: Response<Ack>)
    modifies db`users, db`sessions
    ensures LoadPasswordHash in fails || uid !in old(db.users) ==> resp == Fail(404, "User not found")
    ensures LoadPasswordHash !in fails && uid in old(db.users) && !Verify(change.current, old(db.users)[uid].passwordHash) ==>
              resp == Fail(400, "Current password is incorrect")
    ensures LoadPasswordHash !in fails && uid in old(db.users) && Verify(change.current, old(db.users)[uid].passwordHash) ==>
              resp == if UpdatePassword in fails then Fail(500, "Failed to update password")
                      else Response(200, Json(Ack(true)), Some(ClearedSessionCookie(env)))
    ensures resp.status != 200 ==> db.users == old(db.users) && db.sessions == old(db.sessions)
    ensures resp.status == 200 ==>
              && uid in old(db.users)
              && db.users == WithPassword(old(db.users), uid, change.next)
              && db.sessions == if DeleteUserSessions in fails then old(db.sessions)
                                else WithoutSessionsOf(old(db.sessions), uid)
  {
    if LoadPasswordHash in fails || uid !in db.users {
      return Fail(404, "User not found");
    }
    if !Verify(change.current, db.users[uid].passwordHash) {
      return Fail(400, "Current password is incorrect");
    }
    var passwordHash := Hash(change.next);
    if UpdatePassword in fails {
      return Fail(500, "Failed to update password");
    }
    db.users := db.users[uid := db.users[uid].(passwordHash := passwordHash)];
    if DeleteUserSessions !in fails {
      db.sessions := WithoutSessionsOf(db.sessions, uid);
    }
    resp := Response(200, Json(Ack(true)), Some(SetCookie(CookieName(env), "", SessionCookieOptions(env).(maxAge := 0))));
  }

  /** The steps after authentication: rate limit on "pwd:<id>" (6 per minute), then the payload ladder. */
  method ForUser(db: Database, limiter: RateLimit.RateLimiter, env: Env, uid: Id, body: Body, now: int, fails: set<Call>)
    returns (resp: Response<Ack>)
    modifies limiter, db`users, db`sessions
    ensures limiter.store == RateLimit.Check(old(limiter.store), RateKey(uid), Limit, WindowMs, now).store
    ensures !RateLimit.Check(old(limiter.store), RateKey(uid), Limit, WindowMs, now).decision.allowed ==>
              resp == Fail(429, "Too many attempts")
    ensures RateLimit.Check(old(limiter.store), RateKey(uid), Limit, WindowMs, now).decision.allowed && ParseChange(body).Err? ==>
              resp == Fail(400, ParseChange(body).message)
    ensures RateLimit.Check(old(limiter.store), RateKey(uid), Limit, WindowMs, now).decision.allowed && ParseChange(body).Ok? ==>
              && (LoadPasswordHash in fails || uid !in old(db.users) ==> resp == Fail(404, "User not found"))
              && (LoadPasswordHash !in fails && uid in old(db.users)
                  && !Verify(ParseChange(body).value.current, old(db.users)[uid].passwordHash) ==>
                    resp == Fail(400, "Current password is incorrect"))
              && (LoadPasswordHash !in fails && uid in old(db.users)
                  && Verify(ParseChange(body).value.current, old(db.users)[uid].passwordHash) ==>
                    resp == if UpdatePassword in fails then Fail(500, "Failed to update password")
                            else Response(200, Json(Ack(true)), Some(ClearedSessionCookie(env))))
    ensures resp.status != 200 ==> db.users == old(db.users) && db.sessions == old(db.sessions)
    ensures resp.status == 200 ==>
              && uid in old(db.users) && ParseChange(body).Ok?
              && db.users == WithPassword(old(db.users), uid, ParseChange(body).value.next)
              && db.sessions == if DeleteUserSessions in fails then old(db.sessions)
                                else WithoutSessionsOf(old(db.sessions), uid)
  {
    var rate := limiter.CheckRateLimit("pwd:" + uid, Limit, WindowMs, now);
    if !rate.allowed {
      return Fail(429, "Too many attempts");
    }
    var change := ParseChange(body);
    if change.Err? {
      return Fail(400, change.message);
    }
    resp := Apply(db, env, uid, change.value, fails);
  }

  /** `POST /api/auth/change-password`. */
  method Post(db: Database, limiter: RateLimit.RateLimiter, env: Env, cookie: Option<string>, body: Body, now: int,
              fails: set<Call>) returns (resp: Response<Ack>)
    modifies limiter, db`users, db`sessions
    ensures var found := Resolve(old(db.sessions), old(db.users), cookie, now, LookupSession in fails);
            && (!found.Active? ==>
                  && resp == Fail(401, "Unauthorized") && limiter.store == old(limiter.store) && db.users == old(db.users)
                  && db.sessions == SessionsAfterLookup(old(db.sessions), old(db.users), cookie, now, fails))
            && (found.Active? ==>
                  var uid := found.user.id;
                  var rate := RateLimit.Check(old(limiter.store), RateKey(uid), Limit, WindowMs, now);
                  && limiter.store == rate.store
                  && (!rate.decision.allowed ==> resp == Fail(429, "Too many attempts"))
                  && (rate.decision.allowed && ParseChange(body).Err? ==> resp == Fail(400, ParseChange(body).message))
                  && (rate.decision.allowed && ParseChange(body).Ok? ==>
                        var change := ParseChange(body).value;
                        && (LoadPasswordHash in fails || uid !in old(db.users) ==> resp == Fail(404, "User not found"))
                        && (LoadPasswordHash !in fails && uid in old(db.users)
                            && !Verify(change.current, old(db.users)[uid].passwordHash) ==>
                              resp == Fail(400, "Current password is incorrect"))
                        && (LoadPasswordHash !in fails && uid in old(db.users)
                            && Verify(change.current, old(db.users)[uid].passwordHash) ==>
                              resp == if UpdatePassword in fails then Fail(500, "Failed to update password")
                                      else Response(200, Json(Ack(true)), Some(ClearedSessionCookie(env)))))
                  && (resp.status != 200 ==> db.users == old(db.users) && db.sessions == old(db.sessions))
                  && (resp.status == 200 ==>
                        && rate.decision.allowed && ParseChange(body).Ok?
                        && Verify(ParseChange(body).value.current, old(db.users)[uid].passwordHash)
                        && db.users == WithPassword(old(db.users), uid, ParseChange(body).value.next)
                        && resp.cookie == Some(ClearedSessionCookie(env))
                        && db.sessions == if DeleteUserSessions in fails then old(db.sessions)
                                          else WithoutSessionsOf(old(db.sessions), uid)))
  {
    var user := GetSessionUser(db, cookie, now, fails);
    if user.None? {
      return Fail(401, "Unauthorized");
    }
    resp := ForUser(db, limiter, env, user.value.id, body, now, fails);
  }

  /** After a successful change, no session of the user authenticates any more, including the caller's own. */
  lemma NoSessionOfUserSurvives(sessions: map<Id, Session>, users: map<Id, User>, uid: Id, password: string,
                                cookie: Option<string>, now: int, lookupFails: bool)
    requires cookie.Some? && cookie.value in sessions && sessions[cookie.value].userId == uid && uid in users
    ensures !Resolve(WithoutSessionsOf(sessions, uid), WithPassword(users, uid, password), cookie, now, lookupFails).Active?
  {
  }
}

=== FILE: counts.dfy ===
/** GET /api/memos/counts (app/api/memos/counts/route.ts): the four tab counters of the board. */
module Counts {
  import opened Wrappers
  import opened Validators
  import opened Db
  import opened Auth
  import opened Memos

  datatype Tally = Tally(all: nat, open: nat, solved: nat, owned: nat)

  /** The search filters shared by the four counts: an allowed category and a search text. */
  function SearchFilter(params: map<string, string>): (f: Filter)
    ensures f.status.None? && f.author.None? && f.before.None?
    ensures f.q == GetOptionalString(Param(params, "q"), 120)
    ensures f.category.Some? <==>
              GetOptionalString(Param(params, "category"), 20).Some? && AllowedCategory(GetOptionalString(Param(params, "category"), 20).value)
    ensures f.category.Some? ==> f.category == GetOptionalString(Param(params, "category"), 20)
  {
    var category := GetOptionalString(Param(params, "category"), 20);
    Filter(None, None, if category.Some? && AllowedCategory(category.value) then category else None,
           GetOptionalString(Param(params, "q"), 120), None)
  }

  /** The memos a `count: 'exact'` select with filter `f` counts. */
  function MatchingIds(memos: map<Id, Memo>, f: Filter): (ids: set<Id>)
    ensures forall id :: id in ids <==> id in memos && Matches(memos[id], f)
  {
    set id | id in memos && Matches(memos[id], f)
  }

  /** The four counts: all matches, then the same narrowed to open, to solved and to the caller's memos. */
  function TallyOf(memos: map<Id, Memo>, search: Filter, caller: Id): (t: Tally)
    ensures t.all == |MatchingIds(memos, search)|
    ensures t.open == |MatchingIds(memos, search.(status := Some("open")))|
    ensures t.solved == |MatchingIds(memos, search.(status := Some("solved")))|
    ensures t.owned == |MatchingIds(memos, search.(author := Some(caller)))|
  {
    Tally(|MatchingIds(memos, search)|,
          |MatchingIds(memos, search.(status := Some("open")))|,
          |MatchingIds(memos, search.(status := Some("solved")))|,
          |MatchingIds(memos, search.(author := Some(caller)))|)
  }

  /** Narrowing a search never finds more memos. */
  lemma NarrowedSubset(memos: map<Id, Memo>, search: Filter, narrow: Filter)
    requires forall m: Memo :: Matches(m, narrow) ==> Matches(m, search)
    ensures MatchingIds(memos, narrow) <= MatchingIds(memos, search)
    ensures |MatchingIds(memos, narrow)| <= |MatchingIds(memos, search)|
  {
    var a := MatchingIds(memos, narrow);
    var b := MatchingIds(memos, search);
    assert a <= b;
    assert b == a + (b - a);
  }

  /** Two disjoint parts of a set together count at most the whole, and exactly it when they cover it. */
  lemma DisjointParts(a: set<Id>, b: set<Id>, whole: set<Id>)
    requires a <= whole && b <= whole && a * b == {}
    ensures |a| + |b| <= |whole|
    ensures whole == a + b ==> |a| + |b| == |whole|
  {
    assert |a + b| == |a| + |b|;
    assert whole == (a + b) + (whole - (a + b));
  }

  /** No memo is both open and solved; when every match is one of the two, they cover the matches. */
  lemma StatusesPartition(memos: map<Id, Memo>, search: Filter)
    requires search.status.None?
    ensures MatchingIds(memos, search.(status := Some("open"))) * MatchingIds(memos, search.(status := Some("solved"))) == {}
    ensures (forall id :: id in memos && Matches(memos[id], search) ==> memos[id].status in {"open", "solved"}) ==>
              MatchingIds(memos, search) ==
                MatchingIds(memos, search.(status := Some("open"))) + MatchingIds(memos, search.(status := Some("solved")))
  {
    var open := MatchingIds(memos, search.(status := Some("open")));
    var solved := MatchingIds(memos, search.(status := Some("solved")));
    forall id | id in open ensures id !in solved {
      assert memos[id].status == "open";
    }
    if forall id :: id in memos && Matches(memos[id], search) ==> memos[id].status in {"open", "solved"} {
      forall id | id in MatchingIds(memos, search) ensures id in open + solved {
        if memos[id].status == "open" {
          assert Matches(memos[id], search.(status := Some("open")));
        } else {
          assert Matches(memos[id], search.(status := Some("solved")));
        }
      }
    }
  }

  /**
    Open, solved and owned never exceed all; open and solved together never
    exceed all, and equal it when every matching memo is open or solved.
   */
  lemma TallyBounds(memos: map<Id, Memo>, search: Filter, caller: Id)
    requires search.status.None? && search.author.None?
    ensures var t := TallyOf(memos, search, caller);
            && t.open <= t.all && t.solved <= t.all && t.owned <= t.all
            && t.open + t.solved <= t.all
            && ((forall id :: id in memos && Matches(memos[id], search) ==> memos[id].status in {"open", "solved"}) ==>
                  t.open + t.solved == t.all)
  {
    var open := MatchingIds(memos, search.(status := Some("open")));
    var solved := MatchingIds(memos, search.(status := Some("solved")));
    var all := MatchingIds(memos, search);
    NarrowedSubset(memos, search, search.(status := Some("open")));
    NarrowedSubset(memos, search, search.(status := Some("solved")));
    NarrowedSubset(memos, search, search.(author := Some(caller)));
    StatusesPartition(memos, search);
    DisjointParts(open, solved, all);
  }

  /** The four selects run together; any one failing fails the request. */
  predicate AnyCountFails(fails: set<Call>) {
    CountAll in fails || CountOpen in fails || CountSolved in fails || CountOwned in fails
  }

  /** `GET /api/memos/counts`. */
  method Get(db: Database, cookie: Option<string>, params: map<string, string>, now: int, fails: set<Call>)
    returns (resp: Response<Tally>)
    modifies db`sessions
    ensures db.sessions == SessionsAfterLookup(old(db.sessions), db.users, cookie, now, fails)
    ensures var found := Resolve(old(db.sessions), db.users, cookie, now, LookupSession in fails);
            && (!found.Active? ==> resp == Fail(401, "Unauthorized"))
            && (found.Active? && AnyCountFails(fails) ==> resp == Fail(500, "Failed to load counts"))
            && (found.Active? && !AnyCountFails(fails) ==>
                  resp == Response(200, Json(TallyOf(db.memos, SearchFilter(params), found.user.id)), None))
  {
    var user := GetSessionUser(db, cookie, now, fails);
    if user.None? {
      return Fail(401, "Unauthorized");
    }
    var search := SearchFilter(params);
    if AnyCountFails(fails) {
      return Fail(500, "Failed to load counts");
    }
    resp := Response(200, Json(TallyOf(db.memos, search, user.value.id)), None);
  }
}

=== FILE: db.dfy ===
/**
  The four tables the handlers read and write, held as maps from row id to row,
  together with the shapes of HTTP responses and cookies the handlers produce.
 */
module Db {
  import opened Wrappers

  type Id = string

  /** bcrypt's digest of a password. The salt and cost factor are not modelled. */
  datatype PasswordHash = Bcrypt(of: string)

  /** bcrypt reads at most this many leading characters of a password and ignores the rest. */
  const BcryptMaxLength := 72

  /** The part of a password bcrypt reads. */
  function Significant(password: string): (s: string)
    ensures |s| <= BcryptMaxLength && |s| <= |password| && s == password[..|s|]
    ensures |password| <= BcryptMaxLength ==> s == password
    ensures |password| > BcryptMaxLength ==> |s| == BcryptMaxLength
  {
    if |password| <= BcryptMaxLength then password else password[..BcryptMaxLength]
  }

  /** `bcrypt.hash(password, 10)`. */
  function Hash(password: string): PasswordHash {
    Bcrypt(Significant(password))
  }

  /** `bcrypt.compare(password, hash)`. */
  predicate Verify(password: string, hash: PasswordHash) {
    hash.of == Significant(password)
  }

  /**
    A hash verifies the password it was made from. Up to 72 characters it
    verifies no other; beyond that, every password sharing the first 72
    characters verifies too.
   */
  lemma HashVerifies(password: string, other: string)
    ensures Verify(password, Hash(password))
    ensures |password| <= BcryptMaxLength && |other| <= BcryptMaxLength ==>
              (Verify(other, Hash(password)) <==> other == password)
    ensures |password| >= BcryptMaxLength && |other| >= BcryptMaxLength ==>
              (Verify(other, Hash(password)) <==> other[..BcryptMaxLength] == password[..BcryptMaxLength])
    ensures (|password| < BcryptMaxLength || |other| < BcryptMaxLength) && |other| != |password| ==>
              !Verify(other, Hash(password))
  {
    if |password| >= BcryptMaxLength && |other| >= BcryptMaxLength {
      assert Significant(password) == password[..BcryptMaxLength];
      assert Significant(other) == other[..BcryptMaxLength];
    }
    if (|password| < BcryptMaxLength || |other| < BcryptMaxLength) && |other| != |password| {
      assert |Significant(password)| != |Significant(other)|;
    }
  }

  /** Two different 80-character passwords that agree on their first 72 characters verify against each other. */
  lemma TruncatedPasswordVerifies()
    ensures var stored := seq(80, _ => 'a');
            var sent := seq(72, _ => 'a') + seq(8, _ => 'b');
            sent != stored && Verify(sent, Hash(stored))
  {
    var stored := seq(80, _ => 'a');
    var sent := seq(72, _ => 'a') + seq(8, _ => 'b');
    assert sent[79] != stored[79];
    HashVerifies(stored, sent);
    assert sent[..72] == stored[..72];
  }

  datatype User = User(username: string, displayName: string, passwordHash: PasswordHash, role: string, createdAt: int)

  /** A session row; `expiresAt` is `None` when the stored text does not parse as a date. */
  datatype Session = Session(userId: Id, expiresAt: Option<int>)

  datatype Memo = Memo(
    authorId: Id, title: string, body: string, category: string, status: string,
    assigneeId: Option<Id>, createdAt: int, updatedAt: int, solvedAt: Option<int>)

  datatype Comment = Comment(memoId: Id, authorId: Id, body: string, isAnswer: bool, createdAt: int, updatedAt: int)

  /** A row together with its id, as a select returns it. */
  datatype Row<T> = Row(id: Id, row: T)

  /** The database calls a handler makes. A call named in a handler's `fails` set returns an error. */
  datatype Call =
    | LookupSession | DeleteExpiredSession
    | LookupLoginUser | InsertSession
    | DeleteSession
    | LoadPasswordHash | UpdatePassword | DeleteUserSessions
    | ListUsers
    | LoadSystemUser | LoadTarget | LoadTargetMemos | MigrateComments | MigrateMemos
    | InsertMigrationComments | UpdateTitle(memoId: Id) | DeleteUserRow
    | LookupExistingUser | InsertUser
    | UpdateProfile
    | SelectMemos | InsertMemo
    | CountAll | CountOpen | CountSolved | CountOwned

  class Database {
    var users: map<Id, User>
    var sessions: map<Id, Session>
    var memos: map<Id, Memo>
    var comments: map<Id, Comment>

    constructor()
      ensures users == map[] && sessions == map[] && memos == map[] && comments == map[]
    {
      users, sessions, memos, comments := map[], map[], map[], map[];
    }
  }

  /** The ids of the users called `name`: a `.eq('username', name)` select. */
  function UsersNamed(users: map<Id, User>, name: string): (ids: set<Id>)
    ensures forall id :: id in ids <==> id in users && users[id].username == name
  {
    set id | id in users && users[id].username == name
  }

  /** No two users share a username. */
  ghost predicate UniqueUsernames(users: map<Id, User>) {
    forall a, b :: a in users && b in users && users[a].username == users[b].username ==> a == b
  }

  /**
    A `.maybeSingle()` select of the user called `name`: `Ok(None)` when there is
    none, `Ok(Some(id))` when there is exactly one, an error when there are more.
   */
  method MaybeSingleUserNamed(users: map<Id, User>, name: string) returns (r: Result<Option<Id>>)
    ensures r == Ok(None) <==> UsersNamed(users, name) == {}
    ensures r.Ok? && r.value.Some? ==> UsersNamed(users, name) == {r.value.value}
    ensures r.Err? <==> |UsersNamed(users, name)| > 1
  {
    var ids := UsersNamed(users, name);
    if ids == {} {
      return Ok(None);
    }
    var id :| id in ids;
    if ids == {id} {
      return Ok(Some(id));
    }
    assert id in ids && (ids - {id}) != {};
    assert |ids| == |ids - {id}| + 1;
    return Err("JSON object requested, multiple (or no) rows returned");
  }

  /** The database's id generator: an id no row of the table has. */
  method NewId(used: set<Id>) returns (id: Id)
    ensures id !in used && id != []
  {
    var rest := used;
    var longest: nat := 1;
    while rest != {}
      invariant rest <= used && longest >= 1
      invariant forall u :: u in used - rest ==> |u| < longest
      decreases |rest|
    {
      var u :| u in rest;
      if longest <= |u| {
        longest := |u| + 1;
      }
      rest := rest - {u};
    }
    id := seq(longest, _ => 'x');
    assert |id| == longest;
  }

  /** The rows of a table, in the order the database happens to scan them. */
  method Rows<T>(table: map<Id, T>) returns (rows: seq<Row<T>>)
    ensures forall r :: r in rows ==> r.id in table && table[r.id] == r.row
    ensures forall id :: id in table ==> Row(id, table[id]) in rows
    ensures forall i, j :: 0 <= i < j < |rows| ==> rows[i].id != rows[j].id
  {
    var rest := table.Keys;
    rows := [];
    while rest != {}
      invariant rest <= table.Keys
      invariant forall r :: r in rows ==> r.id in table && r.id !in rest && table[r.id] == r.row
      invariant forall id :: id in table && id !in rest ==> Row(id, table[id]) in rows
      invariant forall i, j :: 0 <= i < j < |rows| ==> rows[i].id != rows[j].id
      decreases |rest|
    {
      var id :| id in rest;
      rows := rows + [Row(id, table[id])];
      rest := rest - {id};
    }
  }

  datatype CookieOptions = CookieOptions(httpOnly: bool, secure: bool, sameSite: string, path: string, maxAge: int)

  /** A `Set-Cookie` the response carries. */
  datatype SetCookie = SetCookie(name: string, value: string, options: CookieOptions)

  datatype Payload<+T> = Error(error: string) | Json(value: T)

  /** An HTTP response: status, JSON body and the cookie it sets, if any. */
  datatype Response<+T> = Response(status: int, body: Payload<T>, cookie: Option<SetCookie>)

  function Fail<T>(status: int, message: string): Response<T> {
    Response(status, Error(message), None)
  }
}

=== FILE: login.dfy ===
/** POST /api/auth/login (app/api/auth/login/route.ts). */
module Login {
  import opened Wrappers
  import opened Text
  import opened Validators
  import opened Db
  import opened Auth
  import RateLimit

  const Limit := 8
  const WindowMs := 60_000

  /** Everything before the first comma: `s.split(',')[0]`. */
  function FirstField(s: string): (r: string)
    ensures |r| <= |s| && r == s[..|r|] && ',' !in r
    ensures |r| < |s| ==> s[|r|] == ','
  {
    if s == [] || s[0] == ',' then [] else [s[0]] + FirstField(s[1..])
  }

  /** The rate-limit address: the trimmed first entry of x-forwarded-for, or "unknown" when that is missing or blank. */
  function ClientIp(forwardedFor: Option<string>): (ip: string)
    ensures ip != []
    ensures forwardedFor.None? ==> ip == "unknown"
    ensures forwardedFor.Some? ==>
              ip == if Trim(FirstField(forwardedFor.value)) == [] then "unknown" else Trim(FirstField(forwardedFor.value))
  {
    var first := if forwardedFor.Some? then Trim(FirstField(forwardedFor.value)) else [];
    if first == [] then "unknown" else first
  }

  function RateKey(forwardedFor: Option<string>): string {
    "login:" + ClientIp(forwardedFor)
  }

  datatype Credentials = Credentials(username: string, password: string)

  /** The payload check: a username of 1..50 and a password of 1..200 characters, both trimmed. */
  function ParseCredentials(body: Body): (r: Result<Credentials>)
    ensures r.Ok? <==> GetString(Field(body, "username"), 50).Some? && GetString(Field(body, "password"), 200).Some?
    ensures r.Ok? ==> 1 <= |r.value.username| <= 50 && 1 <= |r.value.password| <= 200
    ensures r.Ok? ==> r.value.username == Trim(Field(body, "username").s) && r.value.password == Trim(Field(body, "password").s)
    ensures r.Err? ==> r.message == "Invalid payload"
  {
    var username := GetString(Field(body, "username"), 50);
    var password := GetString(Field(body, "password"), 200);
    if username.None? || password.None? then Err("Invalid payload")
    else Ok(Credentials(username.value, password.value))
  }

  /** The largest distance from 1970 in milliseconds a JavaScript `Date` can hold (TimeClip). */
  const MaxTime := 8_640_000_000_000_000

  /** `new Date(t)` is a valid date; outside this range it is invalid and `toISOString()` throws a RangeError. */
  predicate InDateRange(t: int) {
    -MaxTime <= t <= MaxTime
  }

  /** An exception escaping the handler: Next.js answers 500 without a JSON error text. */
  const Uncaught: string := ""

  /** The session row a login at `now` stores for `uid`. */
  function NewSession(env: Env, uid: Id, now: int): (s: Session)
    ensures s.userId == uid && s.expiresAt == Some(Expiry(env, now))
    ensures Live(s, now)
  {
    Session(uid, Some(Expiry(env, now)))
  }

  /** `Date.now() + getSessionDays() * 24 * 60 * 60 * 1000`: the configured number of days after `now`. */
  function Expiry(env: Env, now: int): (t: int)
    ensures t > now && (t - now) % MsPerDay == 0 && (t - now) / MsPerDay == SessionDays(env)
  {
    now + SessionDays(env) * MsPerDay
  }

  /** The default 14 days fit the `Date` range for any clock reading before the year 275 000. */
  lemma DefaultExpiryInDateRange(env: Env, now: int)
    requires env.sessionDays.None?
    requires 0 <= now <= MaxTime - 14 * MsPerDay
    ensures InDateRange(Expiry(env, now))
  {
  }

  /** A configured length of 200 000 000 days puts every expiry from 1970 on past the `Date` range. */
  lemma HugeSessionDaysLeaveDateRange(env: Env, now: int)
    requires env.sessionDays == Some("200000000")
    requires now >= 0
    ensures !InDateRange(Expiry(env, now))
  {
    assert AllDigits("200000000");
    assert DigitsValue("2") == 2;
    assert "20"[..1] == "2";
    assert DigitsValue("20") == 20;
    assert "200"[..2] == "20";
    assert DigitsValue("200") == 200;
    assert "2000"[..3] == "200";
    assert DigitsValue("2000") == 2000;
    assert "20000"[..4] == "2000";
    assert DigitsValue("20000") == 20000;
    assert "200000"[..5] == "20000";
    assert DigitsValue("200000") == 200000;
    assert "2000000"[..6] == "200000";
    assert DigitsValue("2000000") == 2000000;
    assert "20000000"[..7] == "2000000";
    assert DigitsValue("20000000") == 20000000;
    assert "200000000"[..8] == "20000000";
    assert DigitsValue("200000000") == 200000000;
  }

  /** The credentials name exactly one user, and that user's hash verifies the password. */
  ghost predicate Authentic(users: map<Id, User>, creds: Credentials) {
    exists uid :: UsersNamed(users, creds.username) == {uid} && Verify(creds.password, users[uid].passwordHash)
  }

  /** An unknown username and a wrong password both fail the credential check. */
  lemma UnknownNameOrWrongPasswordRejected(users: map<Id, User>, creds: Credentials)
    requires UsersNamed(users, creds.username) == {}
          || exists uid :: UsersNamed(users, creds.username) == {uid} && !Verify(creds.password, users[uid].passwordHash)
    ensures !Authentic(users, creds)
  {
    var named := UsersNamed(users, creds.username);
    if named == {} {
      forall uid ensures named != {uid} {
        assert uid in {uid};
      }
    } else {
      var other :| named == {other} && !Verify(creds.password, users[other].passwordHash);
      forall uid | named == {uid} ensures uid == other {
        assert uid in named;
      }
    }
  }

  /** The user lookup (a `.maybeSingle()` select by username) followed by the bcrypt comparison. */
  method Authenticate(users: map<Id, User>, creds: Credentials, lookupFails: bool) returns (r: Result<Id>)
    ensures r.Ok? <==> !lookupFails && Authentic(users, creds)
    ensures r.Ok? ==> UsersNamed(users, creds.username) == {r.value} && r.value in users
                      && Verify(creds.password, users[r.value].passwordHash)
    ensures r.Err? ==> r.message == "Invalid credentials"
  {
    var found := MaybeSingleUserNamed(users, creds.username);
    ghost var named := UsersNamed(users, creds.username);
    if lookupFails || found.Err? || found.value.None? {
      if found.Err? {
        forall uid ensures named != {uid} {
          assert |{uid}| == 1;
        }
      } else if found.value.None? {
        forall uid ensures named != {uid} {
          assert uid in {uid};
        }
      }
      return Err("Invalid credentials");
    }
    var uid := found.value.value;
    forall other | named == {other} ensures other == uid {
      assert other in named;
    }
    if !Verify(creds.password, users[uid].passwordHash) {
      return Err("Invalid credentials");
    }
    r := Ok(uid);
  }

  /** The part of the handler after the payload check: credential check and session insert. */
  method SignIn(db: Database, env: Env, creds: Credentials, now: int, fails: set<Call>) returns (resp: Response<SessionUser>)
    modifies db`sessions
    ensures !Authentic(db.users, creds) ==> resp == Fail(401, "Invalid credentials")
    ensures LookupLoginUser in fails ==> resp == Fail(401, "Invalid credentials")
    // the expiry is turned into ISO text before the insert is sent
    ensures Authentic(db.users, creds) && LookupLoginUser !in fails && !InDateRange(Expiry(env, now)) ==>
              resp == Fail(500, Uncaught)
    ensures Authentic(db.users, creds) && LookupLoginUser !in fails && InDateRange(Expiry(env, now)) && InsertSession in fails ==>
              resp == Fail(500, "Failed to create session")
    ensures Authentic(db.users, creds) && LookupLoginUser !in fails && InDateRange(Expiry(env, now)) && InsertSession !in fails ==>
              resp.status == 200
    ensures resp.status != 200 ==> db.sessions == old(db.sessions) && resp.cookie.None?
    ensures resp.status == 200 ==>
              && resp.body.Json? && resp.cookie.Some? && InDateRange(Expiry(env, now))
              && var sid := resp.cookie.value.value;
                 var uid := resp.body.value.id;
              && sid != [] && sid !in old(db.sessions) && uid in db.users
              && UsersNamed(db.users, creds.username) == {uid}
              && Verify(creds.password, db.users[uid].passwordHash)
              && db.sessions == old(db.sessions)[sid := NewSession(env, uid, now)]
              && resp.body.value == Identity(uid, db.users[uid])
              && resp.cookie.value == SetCookie(CookieName(env), sid, SessionCookieOptions(env))
  {
    var auth := Authenticate(db.users, creds, LookupLoginUser in fails);
    if auth.Err? {
      return Fail(401, "Invalid credentials");
    }
    var uid := auth.value;
    var user := db.users[uid];

    var session := NewSession(env, uid, now);
    if !InDateRange(session.expiresAt.value) {
      return Fail(500, Uncaught);
    }
    if InsertSession in fails {
      return Fail(500, "Failed to create session");
    }
    var sid := NewId(db.sessions.Keys);
    db.sessions := db.sessions[sid := session];

    resp := Response(200, Json(SessionUser(uid, user.username, user.displayName, user.role)),
                     Some(SetCookie(CookieName(env), sid, SessionCookieOptions(env))));
  }

  /** `POST /api/auth/login`: rate limit on the client address (8 per minute), then sign-in. */
  method Post(db: Database, limiter: RateLimit.RateLimiter, env: Env, forwardedFor: Option<string>,
              body: Body, now: int, fails: set<Call>) returns (resp: Response<SessionUser>)
    modifies limiter, db`sessions
    // the rate slot is taken before the body is read
    ensures limiter.store == RateLimit.Check(old(limiter.store), RateKey(forwardedFor), Limit, WindowMs, now).store
    ensures !RateLimit.Check(old(limiter.store), RateKey(forwardedFor), Limit, WindowMs, now).decision.allowed ==>
              resp == Fail(429, "Too many attempts") && db.sessions == old(db.sessions)
    ensures RateLimit.Check(old(limiter.store), RateKey(forwardedFor), Limit, WindowMs, now).decision.allowed ==>
              && (ParseCredentials(body).Err? ==> resp == Fail(400, "Invalid payload"))
              && (ParseCredentials(body).Ok? && !Authentic(db.users, ParseCredentials(body).value) ==>
                    resp == Fail(401, "Invalid credentials"))
              && (ParseCredentials(body).Ok? && LookupLoginUser in fails ==> resp == Fail(401, "Invalid credentials"))
              && ((ParseCredentials(body).Ok? && Authentic(db.users, ParseCredentials(body).value)
                   && LookupLoginUser !in fails && !InDateRange(Expiry(env, now))) ==> resp == Fail(500, Uncaught))
              && ((ParseCredentials(body).Ok? && Authentic(db.users, ParseCredentials(body).value)
                   && LookupLoginUser !in fails && InDateRange(Expiry(env, now)) && InsertSession in fails) ==>
                    resp == Fail(500, "Failed to create session"))
              && ((ParseCredentials(body).Ok? && Authentic(db.users, ParseCredentials(body).value)
                   && LookupLoginUser !in fails && InDateRange(Expiry(env, now)) && InsertSession !in fails) ==>
                    resp.status == 200)
    // only a successful login adds a session, exactly one, and hands its id out as the cookie
    ensures resp.status != 200 ==> db.sessions == old(db.sessions) && resp.cookie.None?
    ensures resp.status == 200 ==>
              && resp.body.Json? && resp.cookie.Some? && ParseCredentials(body).Ok?
              && LookupLoginUser !in fails && InsertSession !in fails && InDateRange(Expiry(env, now))
              && var sid := resp.cookie.value.value;
                 var uid := resp.body.value.id;
                 var creds := ParseCredentials(body).value;
              && sid != [] && sid !in old(db.sessions) && uid in db.users
              && UsersNamed(db.users, creds.username) == {uid}
              && Verify(creds.password, db.users[uid].passwordHash)
              && db.sessions == old(db.sessions)[sid := NewSession(env, uid, now)]
              && resp.body.value == Identity(uid, db.users[uid])
              && resp.cookie.value == SetCookie(CookieName(env), sid, SessionCookieOptions(env))
  {
    var ip := ClientIp(forwardedFor);
    var rate := limiter.CheckRateLimit("login:" + ip, Limit, WindowMs, now);
    if !rate.allowed {
      return Fail(429, "Too many attempts");
    }
    var creds := ParseCredentials(body);
    if creds.Err? {
      return Fail(400, "Invalid payload");
    }
    resp := SignIn(db, env, creds.value, now, fails);
  }

  /** The cookie a login hands out resolves to the logged-in user until the session expires. */
  lemma NewSessionResolves(sessions: map<Id, Session>, users: map<Id, User>, env: Env, sid: Id, uid: Id, loginAt: int, now: int)
    requires sid != [] && uid in users
    requires now < loginAt + SessionDays(env) * MsPerDay
    ensures Resolve(sessions[sid := NewSession(env, uid, loginAt)], users, Some(sid), now, false) == Active(Identity(uid, users[uid]))
  {
  }
}

=== FILE: logout.dfy ===
/** POST /api/auth/logout (app/api/auth/logout/route.ts). */
module Logout {
  import opened Wrappers
  import opened Db
  import opened Auth

  datatype Ack = Ack(ok: bool)

  /** The sessions table after a logout with `cookie`: the named session is gone when there is a cookie. */
  function AfterLogout(sessions: map<Id, Session>, cookie: Option<string>, deleteFails: bool): (r: map<Id, Session>)
    ensures r.Keys <= sessions.Keys
    ensures forall sid :: sid in r ==> r[sid] == sessions[sid]
    ensures forall sid :: sid in sessions && sid !in r ==> cookie == Some(sid) && sid != [] && !deleteFails
    ensures cookie.Some? && cookie.value != [] && !deleteFails ==> cookie.value !in r
  {
    if cookie.Some? && cookie.value != [] && !deleteFails then sessions - {cookie.value} else sessions
  }

  /** Deletes the session the cookie names, if there is a cookie, and always clears the cookie. */
  method Post(db: Database, env: Env, cookie: Option<string>, fails: set<Call>) returns (resp: Response<Ack>)
    modifies db`sessions
    ensures db.sessions == AfterLogout(old(db.sessions), cookie, DeleteSession in fails)
    ensures resp == Response(200, Json(Ack(true)), Some(ClearedSessionCookie(env)))
  {
    if cookie.Some? && cookie.value != [] && DeleteSession !in fails {
      db.sessions := db.sessions - {cookie.value};
    }
    resp := Response(200, Json(Ack(true)), Some(SetCookie(CookieName(env), "", SessionCookieOptions(env).(maxAge := 0))));
  }

  /** Logging out twice with the same cookie leaves the table as the first logout did. */
  lemma LogoutTwiceIsLogoutOnce(sessions: map<Id, Session>, cookie: Option<string>)
    ensures AfterLogout(AfterLogout(sessions, cookie, false), cookie, false) == AfterLogout(sessions, cookie, false)
  {
  }

  /** After logout the cookie no longer resolves to anyone, whatever the time. */
  lemma LoggedOutCookieResolvesToNobody(sessions: map<Id, Session>, users: map<Id, User>, sid: Id, now: int, lookupFails: bool)
    ensures !Resolve(sessions - {sid}, users, Some(sid), now, lookupFails).Active?
  {
  }
}

=== FILE: memos.dfy ===
/**
  GET and POST /api/memos (app/api/memos/route.ts): the filtered, newest-first
  memo list with its cursor, and memo creation.
 */
module Memos {
  import opened Wrappers
  import opened Text
  import opened Validators
  import opened Db
  import opened Auth
  import Sorting

  const MaxLimit := 50

  predicate AllowedStatus(s: string) {
    s == "open" || s == "solved"
  }

  predicate AllowedCategory(c: string) {
    c in {"env", "frontend", "backend", "db", "git", "other", "chat"}
  }

  /** The query string of a list request, after validation. */
  datatype ListQuery = ListQuery(status: Option<string>, owned: bool, category: Option<string>, q: Option<string>,
                                 cursor: Option<string>, limit: int)

  /**
    Reads the query string: status (10), owned (5), category (20), q (120) and
    cursor (40) as optional trimmed strings; a status or category outside its
    allowed set is dropped; `owned` means "1" or "true"; `limit` is clamped to
    1..50 and defaults to 50.
   */
  function ParseListQuery(params: map<string, string>): (r: ListQuery)
    ensures r.status.Some? <==>
              GetOptionalString(Param(params, "status"), 10).Some? && AllowedStatus(GetOptionalString(Param(params, "status"), 10).value)
    ensures r.status.Some? ==> r.status == GetOptionalString(Param(params, "status"), 10)
    ensures r.owned <==> GetOptionalString(Param(params, "owned"), 5) in {Some("1"), Some("true")}
    ensures r.category.Some? <==>
              GetOptionalString(Param(params, "category"), 20).Some? && AllowedCategory(GetOptionalString(Param(params, "category"), 20).value)
    ensures r.category.Some? ==> r.category == GetOptionalString(Param(params, "category"), 20)
    ensures r.q == GetOptionalString(Param(params, "q"), 120)
    ensures r.cursor == GetOptionalString(Param(params, "cursor"), 40)
    ensures r.limit == ClampNumber(Param(params, "limit"), 1, MaxLimit, MaxLimit) && 1 <= r.limit <= MaxLimit
    ensures "limit" !in params ==> r.limit == MaxLimit
  {
    var status := GetOptionalString(Param(params, "status"), 10);
    var owned := GetOptionalString(Param(params, "owned"), 5);
    var category := GetOptionalString(Param(params, "category"), 20);
    ListQuery(
      if status.Some? && AllowedStatus(status.value) then status else None,
      owned == Some("1") || owned == Some("true"),
      if category.Some? && AllowedCategory(category.value) then category else None,
      GetOptionalString(Param(params, "q"), 120),
      GetOptionalString(Param(params, "cursor"), 40),
      ClampNumber(Param(params, "limit"), 1, MaxLimit, MaxLimit))
  }

  /** The WHERE clause of the list select; `None` leaves a column unconstrained. */
  datatype Filter = Filter(status: Option<string>, author: Option<Id>, category: Option<string>, q: Option<string>,
                           before: Option<int>)

  predicate Matches(m: Memo, f: Filter) {
    && (f.status.Some? ==> m.status == f.status.value)
    && (f.author.Some? ==> m.authorId == f.author.value)
    && (f.category.Some? ==> m.category == f.category.value)
    && (f.q.Some? ==> ContainsIgnoringCase(m.title, f.q.value) || ContainsIgnoringCase(m.body, f.q.value))
    && (f.before.Some? ==> m.updatedAt < f.before.value)
  }

  function FilterOf(query: ListQuery, caller: Id, before: Option<int>): (f: Filter)
    ensures f.author.Some? <==> query.owned
    ensures f.author.Some? ==> f.author.value == caller
  {
    Filter(query.status, if query.owned then Some(caller) else None, query.category, query.q, before)
  }

  /** The rows the filter keeps, in scan order. */
  function Matching(rows: seq<Row<Memo>>, f: Filter): (r: seq<Row<Memo>>)
    ensures forall x :: x in r <==> x in rows && Matches(x.row, f)
    ensures |r| <= |rows|
  {
    if rows == [] then []
    else
      var rest := Matching(rows[1..], f);
      assert forall x :: x in rows <==> x == rows[0] || x in rows[1..];
      if Matches(rows[0].row, f) then [rows[0]] + rest else rest
  }

  /** Sort key of `ORDER BY updated_at DESC`. */
  function NewestKey(r: Row<Memo>): int {
    0 - r.row.updatedAt
  }

  ghost predicate NewestFirst(page: seq<Row<Memo>>) {
    forall i, j :: 0 <= i < j < |page| ==> page[i].row.updatedAt >= page[j].row.updatedAt
  }

  /** The rows the select returns: matching rows, newest first, at most `limit` of them. */
  function Page(rows: seq<Row<Memo>>, f: Filter, limit: int): (page: seq<Row<Memo>>)
    ensures limit >= 0 ==> |page| <= limit
    ensures forall r :: r in page ==> r in rows && Matches(r.row, f)
    ensures NewestFirst(page)
  {
    var sorted := Sorting.SortBy(Matching(rows, f), NewestKey);
    var page := Sorting.Take(sorted, limit);
    assert forall r :: r in page ==> r in sorted by {
      forall r | r in page ensures r in sorted {
        var i :| 0 <= i < |page| && page[i] == r;
        assert sorted[i] == r;
      }
    }
    assert forall r :: r in sorted ==> r in Matching(rows, f) by {
      forall r | r in sorted ensures r in Matching(rows, f) {
        assert r in multiset(sorted);
      }
    }
    assert forall i, j :: 0 <= i < j < |page| ==> NewestKey(page[i]) <= NewestKey(page[j]) by {
      forall i, j | 0 <= i < j < |page| ensures NewestKey(page[i]) <= NewestKey(page[j]) {
        assert page[i] == sorted[i] && page[j] == sorted[j];
      }
    }
    page
  }

  /** A matching row missing from the page is no newer than the page's last row, and the page is full. */
  lemma PageComplete(rows: seq<Row<Memo>>, f: Filter, limit: int, r: Row<Memo>)
    requires 1 <= limit
    requires r in rows && Matches(r.row, f) && r !in Page(rows, f, limit)
    ensures |Page(rows, f, limit)| == limit
    ensures r.row.updatedAt <= Page(rows, f, limit)[limit - 1].row.updatedAt
  {
    var sorted := Sorting.SortBy(Matching(rows, f), NewestKey);
    var page := Page(rows, f, limit);
    assert r in multiset(Matching(rows, f));
    assert r in multiset(sorted);
    var j :| 0 <= j < |sorted| && sorted[j] == r;
    forall k | 0 <= k < |page| ensures sorted[k] != r {
      assert page[k] == sorted[k] && page[k] in page;
    }
    assert |page| <= j;
    assert page[limit - 1] == sorted[limit - 1];
  }

  /** `nextCursor`: the `updated_at` of the last row when the page is full. */
  function NextCursor(page: seq<Row<Memo>>, limit: int): (c: Option<int>)
    requires 1 <= limit
    ensures c.Some? <==> |page| == limit
    ensures c.Some? ==> c.value == page[|page| - 1].row.updatedAt
  {
    if |page| == limit then Some(page[|page| - 1].row.updatedAt) else None
  }

  /**
    The request for the next page (same filters, `updated_at` below the cursor)
    matches exactly the rows this page did not return, except those that share
    the cursor's timestamp: rows tied with the last row of a full page are
    never listed.
   */
  lemma NextPageContinues(rows: seq<Row<Memo>>, f: Filter, limit: int, r: Row<Memo>)
    requires 1 <= limit
    requires NextCursor(Page(rows, f, limit), limit).Some?
    requires r in rows
    ensures var page := Page(rows, f, limit);
            var cursor := NextCursor(page, limit).value;
            Matches(r.row, f.(before := Some(cursor))) <==>
              Matches(r.row, f) && r !in page && r.row.updatedAt != cursor
  {
    var page := Page(rows, f, limit);
    var cursor := NextCursor(page, limit).value;
    var last := page[limit - 1];
    assert last in page && last.row.updatedAt == cursor;
    assert Matches(last.row, f);
    if Matches(r.row, f.(before := Some(cursor))) {
      assert r.row.updatedAt < cursor;
      assert Matches(r.row, f);
      forall i | 0 <= i < |page| ensures page[i] != r {
        if i < limit - 1 {
          assert page[i].row.updatedAt >= last.row.updatedAt;
        }
      }
    }
    if Matches(r.row, f) && r !in page && r.row.updatedAt != cursor {
      PageComplete(rows, f, limit, r);
      assert r.row.updatedAt < cursor;
    }
  }

  /** The page as a statement about the memos table it was read from. */
  ghost predicate IsPage(memos: map<Id, Memo>, f: Filter, limit: int, page: seq<Row<Memo>>) {
    && |page| <= limit
    && (forall r :: r in page ==> r.id in memos && memos[r.id] == r.row && Matches(r.row, f))
    && NewestFirst(page)
    && (forall id :: id in memos && Matches(memos[id], f) && Row(id, memos[id]) !in page ==>
          |page| == limit && page != [] && memos[id].updatedAt <= page[|page| - 1].row.updatedAt)
  }

  lemma PageOfTable(memos: map<Id, Memo>, rows: seq<Row<Memo>>, f: Filter, limit: int)
    requires 1 <= limit
    requires forall r :: r in rows ==> r.id in memos && memos[r.id] == r.row
    requires forall id :: id in memos ==> Row(id, memos[id]) in rows
    ensures IsPage(memos, f, limit, Page(rows, f, limit))
  {
    var page := Page(rows, f, limit);
    assert |page| <= limit && NewestFirst(page);
    forall r | r in page ensures r.id in memos && memos[r.id] == r.row && Matches(r.row, f) {
      assert r in rows;
    }
    forall id | id in memos && Matches(memos[id], f) && Row(id, memos[id]) !in page
      ensures |page| == limit && page != [] && memos[id].updatedAt <= page[|page| - 1].row.updatedAt
    {
      PageComplete(rows, f, limit, Row(id, memos[id]));
    }
  }

  datatype MemoPage = MemoPage(memos: seq<Row<Memo>>, nextCursor: Option<int>)

  /**
    The select: an unparseable cursor makes the `updated_at <` comparison fail
    in the database, like any other query error.
   */
  method Select(memos: map<Id, Memo>, query: ListQuery, caller: Id, fails: set<Call>) returns (resp: Response<MemoPage>)
    requires 1 <= query.limit
    ensures SelectMemos in fails || (query.cursor.Some? && ParseDecimal(query.cursor.value).None?) ==>
              resp == Fail(500, "Failed to load memos")
    ensures !(SelectMemos in fails || (query.cursor.Some? && ParseDecimal(query.cursor.value).None?)) ==>
              var f := FilterOf(query, caller, if query.cursor.Some? then ParseDecimal(query.cursor.value) else None);
              && resp.status == 200 && resp.body.Json? && resp.cookie.None?
              && IsPage(memos, f, query.limit, resp.body.value.memos)
              && resp.body.value.nextCursor == NextCursor(resp.body.value.memos, query.limit)
  {
    var before: Option<int> := None;
    if query.cursor.Some? {
      before := ParseDecimal(query.cursor.value);
      if before.None? {
        return Fail(500, "Failed to load memos");
      }
    }
    if SelectMemos in fails {
      return Fail(500, "Failed to load memos");
    }
    var rows := Rows(memos);
    var f := FilterOf(query, caller, before);
    var page := Page(rows, f, query.limit);
    PageOfTable(memos, rows, f, query.limit);
    resp := Response(200, Json(MemoPage(page, NextCursor(page, query.limit))), None);
  }

  /** `GET /api/memos`. */
  method Get(db: Database, cookie: Option<string>, params: map<string, string>, now: int, fails: set<Call>)
    returns (resp: Response<MemoPage>)
    modifies db`sessions
    ensures db.sessions == SessionsAfterLookup(old(db.sessions), db.users, cookie, now, fails)
    ensures var found := Resolve(old(db.sessions), db.users, cookie, now, LookupSession in fails);
            var query := ParseListQuery(params);
            && (!found.Active? ==> resp == Fail(401, "Unauthorized"))
            && (found.Active? && (SelectMemos in fails || (query.cursor.Some? && ParseDecimal(query.cursor.value).None?)) ==>
                  resp == Fail(500, "Failed to load memos"))
            && (found.Active? && !(SelectMemos in fails || (query.cursor.Some? && ParseDecimal(query.cursor.value).None?)) ==>
                  var f := FilterOf(query, found.user.id, if query.cursor.Some? then ParseDecimal(query.cursor.value) else None);
                  && resp.status == 200 && resp.body.Json?
                  && IsPage(db.memos, f, query.limit, resp.body.value.memos)
                  && resp.body.value.nextCursor == NextCursor(resp.body.value.memos, query.limit))
  {
    var user := GetSessionUser(db, cookie, now, fails);
    if user.None? {
      return Fail(401, "Unauthorized");
    }
    var query := ParseListQuery(params);
    resp := Select(db.memos, query, user.value.id, fails);
  }

  datatype NewMemo = NewMemo(title: string, body: string, category: string)

  /** The payload check: title (120), body (2000) and an allowed category (20), all required. */
  function ParseNewMemo(body: Body): (r: Result<NewMemo>)
    ensures r.Ok? <==>
              && GetOptionalString(Field(body, "title"), 120).Some?
              && GetOptionalString(Field(body, "body"), 2000).Some?
              && GetOptionalString(Field(body, "category"), 20).Some?
              && AllowedCategory(GetOptionalString(Field(body, "category"), 20).value)
    ensures r.Ok? ==>
              && r.value.title == Trim(Field(body, "title").s) && 1 <= |r.value.title| <= 120
              && r.value.body == Trim(Field(body, "body").s) && 1 <= |r.value.body| <= 2000
              && AllowedCategory(r.value.category)
    ensures r.Err? ==> r.message == "Invalid payload"
  {
    var title := GetOptionalString(Field(body, "title"), 120);
    var memoBody := GetOptionalString(Field(body, "body"), 2000);
    var category := GetOptionalString(Field(body, "category"), 20);
    if title.None? || memoBody.None? || category.None? || !AllowedCategory(category.value) then Err("Invalid payload")
    else Ok(NewMemo(title.value, memoBody.value, category.value))
  }

  /** The row the insert stores: open, unassigned, unsolved, both timestamps defaulting to now. */
  function Opened(author: Id, nm: NewMemo, now: int): (m: Memo)
    ensures m.authorId == author && m.title == nm.title && m.body == nm.body && m.category == nm.category
    ensures m.status == "open" && m.assigneeId.None? && m.solvedAt.None?
    ensures m.createdAt == now && m.updatedAt == now
  {
    Memo(author, nm.title, nm.body, nm.category, "open", None, now, now, None)
  }

  /** The insert of a validated memo. */
  method Insert(db: Database, author: Id, nm: NewMemo, now: int, fails: set<Call>) returns (resp: Response<Row<Memo>>)
    modifies db`memos
    ensures InsertMemo in fails ==> resp == Fail(500, "Failed to create memo") && db.memos == old(db.memos)
    ensures InsertMemo !in fails ==>
              && resp.status == 201 && resp.body.Json? && resp.cookie.None?
              && resp.body.value.id !in old(db.memos)
              && resp.body.value.row == Opened(author, nm, now)
              && db.memos == old(db.memos)[resp.body.value.id := Opened(author, nm, now)]
  {
    if InsertMemo in fails {
      return Fail(500, "Failed to create memo");
    }
    var id := NewId(db.memos.Keys);
    var memo := Opened(author, nm, now);
    db.memos := db.memos[id := memo];
    resp := Response(201, Json(Row(id, memo)), None);
  }

  /** The steps after authentication: payload check, then insert with `author` as author. */
  method Create(db: Database, author: Id, body: Body, now: int, fails: set<Call>) returns (resp: Response<Row<Memo>>)
    modifies db`memos
    ensures ParseNewMemo(body).Err? ==> resp == Fail(400, "Invalid payload") && db.memos == old(db.memos)
    ensures ParseNewMemo(body).Ok? && InsertMemo in fails ==>
              resp == Fail(500, "Failed to create memo") && db.memos == old(db.memos)
    ensures ParseNewMemo(body).Ok? && InsertMemo !in fails ==>
              && resp.status == 201 && resp.body.Json?
              && resp.body.value.id !in old(db.memos)
              && resp.body.value.row == Opened(author, ParseNewMemo(body).value, now)
              && db.memos == old(db.memos)[resp.body.value.id := resp.body.value.row]
  {
    var nm := ParseNewMemo(body);
    if nm.Err? {
      return Fail(400, "Invalid payload");
    }
    resp := Insert(db, author, nm.value, now, fails);
  }

  /** `POST /api/memos`. */
  method Post(db: Database, cookie: Option<string>, body: Body, now: int, fails: set<Call>) returns (resp: Response<Row<Memo>>)
    modifies db`sessions, db`memos
    ensures db.sessions == SessionsAfterLookup(old(db.sessions), db.users, cookie, now, fails)
    ensures var found := Resolve(old(db.sessions), db.users, cookie, now, LookupSession in fails);
            && (!found.Active? ==> resp == Fail(401, "Unauthorized") && db.memos == old(db.memos))
            && (found.Active? && ParseNewMemo(body).Err? ==> resp == Fail(400, "Invalid payload") && db.memos == old(db.memos))
            && (found.Active? && ParseNewMemo(body).Ok? && InsertMemo in fails ==>
                  resp == Fail(500, "Failed to create memo") && db.memos == old(db.memos))
            && (found.Active? && ParseNewMemo(body).Ok? && InsertMemo !in fails ==>
                  && resp.status == 201 && resp.body.Json?
                  && resp.body.value.id !in old(db.memos)
                  && resp.body.value.row == Opened(found.user.id, ParseNewMemo(body).value, now)
                  && db.memos == old(db.memos)[resp.body.value.id := resp.body.value.row])
  {
    var user := GetSessionUser(db, cookie, now, fails);
    if user.None? {
      return Fail(401, "Unauthorized");
    }
    resp := Create(db, user.value.id, body, now, fails);
  }

  /** A memo just created is open and heads the unfiltered first page listed at the same instant. */
  lemma CreatedMemoListedFirst(memos: map<Id, Memo>, id: Id, m: Memo, limit: int, page: seq<Row<Memo>>)
    requires 1 <= limit
    requires forall other :: other in memos ==> memos[other].updatedAt <= m.updatedAt
    requires IsPage(memos[id := m], Filter(None, None, None, None, None), limit, page)
    ensures page != [] && page[0].row.updatedAt == m.updatedAt
  {
    var all := memos[id := m];
    var f := Filter(None, None, None, None, None);
    assert id in all && all[id] == m && Matches(m, f);
    assert page != [];
    assert page[0] in page;
    if Row(id, m) in page {
      var i :| 0 <= i < |page| && page[i] == Row(id, m);
      assert page[0].row.updatedAt >= page[i].row.updatedAt;
    } else {
      assert m.updatedAt <= page[|page| - 1].row.updatedAt;
      assert page[0].row.updatedAt >= page[|page| - 1].row.updatedAt;
    }
  }
}

=== FILE: middleware.dfy ===
/**
  The page middleware (middleware.ts): which page requests need a session, and
  the redirect or pass-through it answers with. The call to `/api/auth/me` it
  makes is the boolean `authOk`, read only when the decision needs it.
 */
module Middleware {
  import opened Wrappers
  import opened Text
  import opened Db
  import opened Auth

  const ProtectedPaths: seq<string> := ["/", "/memos", "/account", "/admin"]

  /** `path` is `p` itself or lies below it. */
  predicate Under(path: string, p: string) {
    path == p || StartsWith(path, p + "/")
  }

  /** `protectedPaths.some(...)`, scanning the list in order. */
  function AnyUnder(path: string, paths: seq<string>): (b: bool)
    ensures b <==> exists i :: 0 <= i < |paths| && Under(path, paths[i])
  {
    if paths == [] then false
    else if Under(path, paths[0]) then true
    else
      var rest := AnyUnder(path, paths[1..]);
      assert forall i :: 1 <= i < |paths| ==> paths[i] == paths[1..][i - 1];
      assert rest ==> exists i :: 0 <= i < |paths| && Under(path, paths[i]) by {
        if rest {
          var j :| 0 <= j < |paths| - 1 && Under(path, paths[1..][j]);
          assert Under(path, paths[j + 1]);
        }
      }
      rest
  }

  function IsProtected(path: string): (b: bool)
    ensures b <==> Under(path, "/") || Under(path, "/memos") || Under(path, "/account") || Under(path, "/admin")
  {
    assert ProtectedPaths[0] == "/" && ProtectedPaths[1] == "/memos";
    assert ProtectedPaths[2] == "/account" && ProtectedPaths[3] == "/admin";
    AnyUnder(path, ProtectedPaths)
  }

  /** The login page and a look-alike of a protected prefix are not protected. */
  lemma LoginAndLookalikesUnprotected()
    ensures !IsProtected("/login")
    ensures !IsProtected("/memosX") && IsProtected("/memos/abc")
  {
    assert !StartsWith("/login", "//") by {
      assert "/login"[1] != '/';
    }
    assert !StartsWith("/memosX", "//") by {
      assert "/memosX"[1] != '/';
    }
    assert !StartsWith("/memosX", "/memos/") by {
      assert "/memosX"[6] != "/memos/"[6];
    }
    assert StartsWith("/memos/abc", "/memos/") by {
      assert "/memos/abc"[..7] == "/memos/";
    }
  }

  /** An absent or empty cookie is no session. */
  predicate HasSession(cookie: Option<string>) {
    cookie.Some? && cookie.value != []
  }

  /** The auth check runs only with a session, on a protected page or on the login page. */
  predicate NeedsAuthCheck(path: string, cookie: Option<string>) {
    HasSession(cookie) && (IsProtected(path) || path == "/login")
  }

  datatype Action = Next(cookie: Option<SetCookie>) | Redirect(to: string, cookie: Option<SetCookie>)

  function Decide(env: Env, path: string, cookie: Option<string>, authOk: bool): (a: Action)
    ensures !HasSession(cookie) && IsProtected(path) ==> a == Redirect("/login", None)
    ensures HasSession(cookie) && IsProtected(path) && !authOk ==> a == Redirect("/login", Some(ClearedSessionCookie(env)))
    ensures HasSession(cookie) && path == "/login" && !authOk ==> a == Next(Some(ClearedSessionCookie(env)))
    ensures HasSession(cookie) && path == "/login" && authOk ==> a == Redirect("/", None)
    ensures !NeedsAuthCheck(path, cookie) && !(IsProtected(path) && !HasSession(cookie)) ==> a == Next(None)
    ensures NeedsAuthCheck(path, cookie) && authOk && path != "/login" ==> a == Next(None)
  {
    LoginAndLookalikesUnprotected();
    var protected := IsProtected(path);
    if !HasSession(cookie) && protected then Redirect("/login", None)
    else if HasSession(cookie) && (protected || path == "/login") then
      if !authOk && protected then Redirect("/login", Some(ClearedSessionCookie(env)))
      else if !authOk && path == "/login" then Next(Some(ClearedSessionCookie(env)))
      else if authOk && path == "/login" then Redirect("/", None)
      else Next(None)
    else Next(None)
  }

  /** Where no auth check runs, its result cannot matter. */
  lemma UncheckedIgnoresAuth(env: Env, path: string, cookie: Option<string>)
    requires !NeedsAuthCheck(path, cookie)
    ensures Decide(env, path, cookie, true) == Decide(env, path, cookie, false)
  {
  }

  /** A redirect always leads to the login page or, from it, to the board, never to where it came from. */
  lemma RedirectsDoNotLoop(env: Env, path: string, cookie: Option<string>, authOk: bool)
    requires Decide(env, path, cookie, authOk).Redirect?
    ensures Decide(env, path, cookie, authOk).to in {"/login", "/"}
    ensures Decide(env, path, cookie, authOk).to != path
  {
    LoginAndLookalikesUnprotected();
  }
}

=== FILE: profile.dfy ===
/** POST /api/account/profile (app/api/account/profile/route.ts). */
module Profile {
  import opened Wrappers
  import opened Text
  import opened Validators
  import opened Db
  import opened Auth

  const MaxDisplayName := 40

  datatype Saved = Saved(ok: bool, displayName: string)

  /** The users table with the display name of `uid` replaced; an update matching no row changes nothing. */
  function WithDisplayName(users: map<Id, User>, uid: Id, name: string): (r: map<Id, User>)
    ensures r.Keys == users.Keys
    ensures uid in users ==> r[uid] == users[uid].(displayName := name)
    ensures forall other :: other in users && other != uid ==> r[other] == users[other]
  {
    if uid in users then users[uid := users[uid].(displayName := name)] else users
  }

  /** The steps after authentication: validate the name, then update the caller's row. */
  method Rename(db: Database, uid: Id, body: Body, fails: set<Call>) returns (resp: Response<Saved>)
    modifies db`users
    ensures var name := GetString(Field(body, "display_name"), MaxDisplayName);
            && (name.None? ==> resp == Fail(400, "Invalid payload"))
            && (name.Some? && UpdateProfile in fails ==> resp == Fail(500, "Failed to update profile"))
            && (name.Some? && UpdateProfile !in fails ==>
                  && resp == Response(200, Json(Saved(true, name.value)), None)
                  && db.users == WithDisplayName(old(db.users), uid, name.value))
            && (resp.status != 200 ==> db.users == old(db.users))
  {
    var displayName := GetString(Field(body, "display_name"), MaxDisplayName);
    if displayName.None? {
      return Fail(400, "Invalid payload");
    }
    if UpdateProfile in fails {
      return Fail(500, "Failed to update profile");
    }
    if uid in db.users {
      db.users := db.users[uid := db.users[uid].(displayName := displayName.value)];
    }
    resp := Response(200, Json(Saved(true, displayName.value)), None);
  }

  /** `POST /api/account/profile`: the caller renames themself to a trimmed name of 1..40 characters. */
  method Post(db: Database, cookie: Option<string>, body: Body, now: int, fails: set<Call>) returns (resp: Response<Saved>)
    modifies db`users, db`sessions
    ensures db.sessions == SessionsAfterLookup(old(db.sessions), old(db.users), cookie, now, fails)
    ensures var found := Resolve(old(db.sessions), old(db.users), cookie, now, LookupSession in fails);
            var name := GetString(Field(body, "display_name"), MaxDisplayName);
            && (!found.Active? ==> resp == Fail(401, "Unauthorized"))
            && (found.Active? && name.None? ==> resp == Fail(400, "Invalid payload"))
            && (found.Active? && name.Some? && UpdateProfile in fails ==> resp == Fail(500, "Failed to update profile"))
            && (found.Active? && name.Some? && UpdateProfile !in fails ==>
                  && resp == Response(200, Json(Saved(true, name.value)), None)
                  && db.users == WithDisplayName(old(db.users), found.user.id, name.value))
            && (resp.status != 200 ==> db.users == old(db.users))
    ensures resp.status == 200 ==> resp.body.Json? && 1 <= |resp.body.value.displayName| <= MaxDisplayName
                                   && Trimmed(resp.body.value.displayName)
  {
    var user := GetSessionUser(db, cookie, now, fails);
    if user.None? {
      return Fail(401, "Unauthorized");
    }
    resp := Rename(db, user.value.id, body, fails);
  }
}

=== FILE: ratelimit.dfy ===
/**
  The fixed-window rate limiter of lib/rateLimit.ts: a process-wide map from a
  key such as "login:<ip>" to a counter and the instant its window ends. The
  clock is a parameter.
 */
module RateLimit {

  datatype Entry = Entry(count: int, resetAt: int)

  type Store = map<string, Entry>

  datatype Decision = Decision(allowed: bool, remaining: int, retryAfterMs: int)

  datatype Outcome = Outcome(decision: Decision, store: Store)

  /** Whether a call at `now` finds `key` without a running window. */
  predicate WindowExpired(store: Store, key: string, now: int) {
    key !in store || store[key].resetAt <= now
  }

  /** One call of `checkRateLimit(key, limit, windowMs)` at time `now`, as a function of the store. */
  function Check(store: Store, key: string, limit: int, windowMs: int, now: int): (o: Outcome)
    // a new window: the call is allowed and the counter restarts at 1
    ensures WindowExpired(store, key, now) ==>
              o == Outcome(Decision(true, limit - 1, windowMs), store[key := Entry(1, now + windowMs)])
    // inside a window: allowed exactly while the count is below the limit
    ensures !WindowExpired(store, key, now) ==> (o.decision.allowed <==> store[key].count < limit)
    ensures !WindowExpired(store, key, now) && o.decision.allowed ==>
              o.store == store[key := Entry(store[key].count + 1, store[key].resetAt)]
              && o.decision.retryAfterMs == store[key].resetAt - now
    // a denial changes nothing and reports the time left in the window
    ensures !o.decision.allowed ==>
              key in store && o.store == store && o.decision.remaining == 0
              && o.decision.retryAfterMs == store[key].resetAt - now > 0
    ensures o.decision.allowed ==> key in o.store && o.decision.remaining == limit - o.store[key].count
    ensures key in o.store && o.store - {key} == store - {key}
  {
    if WindowExpired(store, key, now) then
      Outcome(Decision(true, limit - 1, windowMs), store[key := Entry(1, now + windowMs)])
    else
      var entry := store[key];
      if entry.count >= limit then
        Outcome(Decision(false, 0, entry.resetAt - now), store)
      else
        var next := store[key := entry.(count := entry.count + 1)];
        Outcome(Decision(true, limit - next[key].count, entry.resetAt - now), next)
  }

  /** The module-level `rateStore` and the function that consults and updates it. */
  class RateLimiter {
    var store: Store

    constructor()
      ensures store == map[]
    {
      store := map[];
    }

    method CheckRateLimit(key: string, limit: int, windowMs: int, now: int) returns (d: Decision)
      modifies this
      ensures Outcome(d, store) == Check(old(store), key, limit, windowMs, now)
    {
      if key !in store || store[key].resetAt <= now {
        store := store[key := Entry(1, now + windowMs)];
        return Decision(true, limit - 1, windowMs);
      }
      var entry := store[key];
      if entry.count >= limit {
        return Decision(false, 0, entry.resetAt - now);
      }
      store := store[key := entry.(count := entry.count + 1)];
      d := Decision(true, limit - store[key].count, entry.resetAt - now);
    }
  }

  /** Every stored counter lies in 1..limit. */
  ghost predicate CountsWithin(store: Store, limit: int) {
    forall k :: k in store ==> 1 <= store[k].count <= limit
  }

  /** With a positive limit, no call drives a counter outside 1..limit. */
  lemma CheckKeepsCountsWithin(store: Store, key: string, limit: int, windowMs: int, now: int)
    requires limit >= 1 && CountsWithin(store, limit)
    ensures CountsWithin(Check(store, key, limit, windowMs, now).store, limit)
  {
  }

  /** The allowed flags of successive calls on one key at the instants `times`. */
  function Run(store: Store, key: string, limit: int, windowMs: int, times: seq<int>): (r: seq<bool>)
    ensures |r| == |times|
    decreases |times|
  {
    if times == [] then []
    else
      var o := Check(store, key, limit, windowMs, times[0]);
      [o.decision.allowed] + Run(o.store, key, limit, windowMs, times[1..])
  }

  /** Inside a running window, a call is allowed exactly while count + calls so far stays below the limit. */
  lemma {:induction false} RunInsideWindow(store: Store, key: string, limit: int, windowMs: int, times: seq<int>)
    requires key in store
    requires forall i :: 0 <= i < |times| ==> times[i] < store[key].resetAt
    ensures forall i :: 0 <= i < |times| ==> Run(store, key, limit, windowMs, times)[i] == (store[key].count + i < limit)
  {
    if times != [] {
      var o := Check(store, key, limit, windowMs, times[0]);
      var c := store[key].count;
      assert o.store[key].resetAt == store[key].resetAt;
      assert o.store[key].count == if c < limit then c + 1 else c;
      RunInsideWindow(o.store, key, limit, windowMs, times[1..]);
      forall i | 1 <= i < |times|
        ensures Run(store, key, limit, windowMs, times)[i] == (c + i < limit)
      {
        assert Run(store, key, limit, windowMs, times)[i] == Run(o.store, key, limit, windowMs, times[1..])[i - 1];
      }
    }
  }

  /**
    Starting a fresh window, of the calls made before it ends exactly the first
    `limit` are allowed; the first call is allowed even when `limit` is 0 or less.
   */
  lemma FirstCallsOfWindowAllowed(store: Store, key: string, limit: int, windowMs: int, times: seq<int>)
    requires times != [] && WindowExpired(store, key, times[0])
    requires forall i :: 0 <= i < |times| ==> times[i] < times[0] + windowMs
    ensures forall i :: 0 <= i < |times| ==> Run(store, key, limit, windowMs, times)[i] == (i == 0 || i < limit)
  {
    var o := Check(store, key, limit, windowMs, times[0]);
    RunInsideWindow(o.store, key, limit, windowMs, times[1..]);
    forall i | 1 <= i < |times|
      ensures Run(store, key, limit, windowMs, times)[i] == (i < limit)
    {
      assert Run(store, key, limit, windowMs, times)[i] == Run(o.store, key, limit, windowMs, times[1..])[i - 1];
    }
  }
}

=== FILE: sorting.dfy ===
/**
  Ordering of query results. The database returns rows ordered by one
  timestamp column; rows with equal keys keep the order in which they were
  scanned (a stable insertion sort), which the database leaves unspecified.
 */
module Sorting {

  ghost predicate SortedBy<T>(s: seq<T>, key: T -> int) {
    forall i, j :: 0 <= i < j < |s| ==> key(s[i]) <= key(s[j])
  }

  /** A smallest key in front of a sorted sequence keeps it sorted. */
  lemma ConsSorted<T>(a: T, rest: seq<T>, key: T -> int)
    requires SortedBy(rest, key)
    requires forall k :: 0 <= k < |rest| ==> key(a) <= key(rest[k])
    ensures SortedBy([a] + rest, key)
  {
    var r := [a] + rest;
    forall i, j | 0 <= i < j < |r| ensures key(r[i]) <= key(r[j]) {
      assert r[j] == rest[j - 1];
      if i > 0 {
        assert r[i] == rest[i - 1];
      }
    }
  }

  /** A lower bound of `x` and of every element of `s` bounds every element of a permutation of both. */
  lemma BoundKept<T>(bound: int, x: T, s: seq<T>, r: seq<T>, key: T -> int)
    requires multiset(r) == multiset(s) + multiset{x}
    requires bound <= key(x)
    requires forall k :: 0 <= k < |s| ==> bound <= key(s[k])
    ensures forall k :: 0 <= k < |r| ==> bound <= key(r[k])
  {
    forall k | 0 <= k < |r| ensures bound <= key(r[k]) {
      assert r[k] in multiset(r);
      if r[k] != x {
        assert r[k] in multiset(s);
        var j :| 0 <= j < |s| && s[j] == r[k];
      }
    }
  }

  /** Inserts `x` before the first element whose key is larger. */
  function InsertBy<T>(x: T, s: seq<T>, key: T -> int): (r: seq<T>)
    requires SortedBy(s, key)
    ensures SortedBy(r, key)
    ensures multiset(r) == multiset(s) + multiset{x}
    ensures |r| == |s| + 1
  {
    if s == [] then [x]
    else if key(x) <= key(s[0]) then
      ConsSorted(x, s, key);
      [x] + s
    else
      var rest := InsertBy(x, s[1..], key);
      assert s == [s[0]] + s[1..];
      BoundKept(key(s[0]), x, s[1..], rest, key);
      ConsSorted(s[0], rest, key);
      [s[0]] + rest
  }

  /** The rows of `s` in ascending order of `key`. */
  function SortBy<T>(s: seq<T>, key: T -> int): (r: seq<T>)
    ensures SortedBy(r, key)
    ensures multiset(r) == multiset(s)
    ensures |r| == |s|
  {
    if s == [] then []
    else
      assert s == s[..|s| - 1] + [s[|s| - 1]];
      InsertBy(s[|s| - 1], SortBy(s[..|s| - 1], key), key)
  }

  /** The first `n` rows, or all of them when there are fewer. */
  function Take<T>(s: seq<T>, n: int): (r: seq<T>)
    ensures |r| == if n < 0 then 0 else if n < |s| then n else |s|
    ensures forall i :: 0 <= i < |r| ==> r[i] == s[i]
  {
    if n <= 0 then [] else if n < |s| then s[..n] else s
  }
}

=== FILE: text.dfy ===
/**
  String helpers with the meaning of the JavaScript built-ins the handlers call:
  `String.prototype.trim`, `startsWith`, the ASCII part of case-insensitive
  matching, and `Number(string)` restricted to decimal integers.
 */
module Text {
  import opened Wrappers

  /** The characters `trim` removes: the ECMAScript WhiteSpace and LineTerminator code points. */
  predicate IsSpace(c: char) {
    c == '\t' || c == '\n' || c == '\U{B}' || c == '\U{C}' || c == '\r' || c == ' '
    || c == '\U{A0}' || c == '\U{1680}' || ('\U{2000}' <= c <= '\U{200A}')
    || c == '\U{2028}' || c == '\U{2029}' || c == '\U{202F}' || c == '\U{205F}'
    || c == '\U{3000}' || c == '\U{FEFF}'
  }

  predicate AllSpace(s: string) {
    forall i :: 0 <= i < |s| ==> IsSpace(s[i])
  }

  /** Neither end of `s` is whitespace: what `trim` returns. */
  predicate Trimmed(s: string) {
    s == [] || (!IsSpace(s[0]) && !IsSpace(s[|s| - 1]))
  }

  /** Drops leading whitespace: the result is a suffix of `s` and only whitespace was dropped. */
  function TrimStart(s: string): (r: string)
    ensures |r| <= |s| && r == s[|s| - |r|..]
    ensures AllSpace(s[..|s| - |r|])
    ensures r == [] || !IsSpace(r[0])
  {
    if s != [] && IsSpace(s[0]) then TrimStart(s[1..]) else s
  }

  /** Drops trailing whitespace: the result is a prefix of `s` and only whitespace was dropped. */
  function TrimEnd(s: string): (r: string)
    ensures |r| <= |s| && r == s[..|r|]
    ensures AllSpace(s[|r|..])
    ensures r == [] || !IsSpace(r[|r| - 1])
  {
    if s != [] && IsSpace(s[|s| - 1]) then TrimEnd(s[..|s| - 1]) else s
  }

  /** `s.trim()`. */
  function Trim(s: string): (r: string)
    ensures |r| <= |s| && Trimmed(r)
    ensures r == [] <==> AllSpace(s)
  {
    var t := TrimStart(s);
    var r := TrimEnd(t);
    assert r != [] ==> r[0] == t[0];
    assert r == [] ==> AllSpace(s) by {
      if r == [] {
        assert t[|r|..] == t;
        assert t == [];
        assert s[..|s| - |t|] == s;
      }
    }
    assert AllSpace(s) ==> t == [] by {
      if t != [] {
        assert t[0] == s[|s| - |t|];
      }
    }
    r
  }

  /** Whitespace padding around a trimmed string is exactly what `trim` removes. */
  lemma {:induction false} TrimStartPadded(pad: string, s: string)
    requires AllSpace(pad) && (s == [] || !IsSpace(s[0]))
    ensures TrimStart(pad + s) == s
  {
    if pad != [] {
      assert (pad + s)[1..] == pad[1..] + s;
      TrimStartPadded(pad[1..], s);
    } else {
      assert pad + s == s;
    }
  }

  lemma {:induction false} TrimEndPadded(s: string, pad: string)
    requires AllSpace(pad) && (s == [] || !IsSpace(s[|s| - 1]))
    ensures TrimEnd(s + pad) == s
  {
    if pad != [] {
      assert (s + pad)[..|s + pad| - 1] == s + pad[..|pad| - 1];
      TrimEndPadded(s, pad[..|pad| - 1]);
    } else {
      assert s + pad == s;
    }
  }

  /** `trim` is the identity on trimmed strings and strips any whitespace padding around them. */
  lemma TrimPadded(before: string, s: string, after: string)
    requires AllSpace(before) && AllSpace(after) && Trimmed(s)
    ensures Trim(before + s + after) == s
  {
    if s == [] {
      assert before + s + after == before + after;
      assert AllSpace(before + after);
    } else {
      assert before + s + after == before + (s + after);
      TrimStartPadded(before, s + after);
      TrimEndPadded(s, after);
    }
  }

  /** Trimming twice is trimming once. */
  lemma TrimIdempotent(s: string)
    ensures Trim(Trim(s)) == Trim(s)
  {
    var t := Trim(s);
    assert [] + t + [] == t;
    TrimPadded([], t, []);
  }

  predicate StartsWith(s: string, prefix: string) {
    |prefix| <= |s| && s[..|prefix|] == prefix
  }

  function LowerChar(c: char): char {
    if 'A' <= c <= 'Z' then (c as int + 32) as char else c
  }

  /** ASCII lower-casing; other characters are kept as they are. */
  function Lower(s: string): (r: string)
    ensures |r| == |s|
  {
    seq(|s|, i requires 0 <= i < |s| => LowerChar(s[i]))
  }

  predicate OccursAt(hay: string, needle: string, i: int) {
    0 <= i && i + |needle| <= |hay| && hay[i..i + |needle|] == needle
  }

  /** `needle` is a substring of `hay`. */
  predicate Contains(hay: string, needle: string) {
    exists i :: 0 <= i <= |hay| && OccursAt(hay, needle, i)
  }

  /** `hay ILIKE '%needle%'`, with the case folding restricted to ASCII letters. */
  predicate ContainsIgnoringCase(hay: string, needle: string) {
    Contains(Lower(hay), Lower(needle))
  }

  predicate IsDigit(c: char) {
    '0' <= c <= '9'
  }

  predicate AllDigits(s: string) {
    forall i :: 0 <= i < |s| ==> IsDigit(s[i])
  }

  function DigitsValue(s: string): nat
    requires AllDigits(s)
  {
    if s == [] then 0 else DigitsValue(s[..|s| - 1]) * 10 + (s[|s| - 1] as int - '0' as int)
  }

  lemma DigitsUntouchedByTrim(s: string)
    requires AllDigits(s) && s != []
    ensures Trim(s) == s
  {
    assert !IsSpace(s[0]) && !IsSpace(s[|s| - 1]);
    assert [] + s + [] == s;
    TrimPadded([], s, []);
  }

  /** An optional sign followed by one or more decimal digits; anything else is not a number. */
  function ParseDecimal(s: string): (r: Option<int>)
    ensures r.Some? ==> s != [] && !IsSpace(s[0])
    ensures AllDigits(s) && s != [] ==> r == Some(DigitsValue(s))
  {
    if s != [] && (s[0] == '+' || s[0] == '-') then
      if |s| > 1 && AllDigits(s[1..]) then
        Some(if s[0] == '-' then 0 - DigitsValue(s[1..]) else DigitsValue(s[1..]))
      else None
    else if s != [] && AllDigits(s) then Some(DigitsValue(s))
    else None
  }

  /**
    `Number(s)` for a string: surrounding whitespace is ignored and a blank
    string is 0. `None` stands for NaN and Infinity.
   */
  function StringToNumber(s: string): (r: Option<int>)
    ensures AllSpace(s) ==> r == Some(0)
    ensures AllDigits(s) && s != [] ==> r == Some(DigitsValue(s))
  {
    var t := Trim(s);
    assert AllDigits(s) && s != [] ==> t == s by {
      if AllDigits(s) && s != [] { DigitsUntouchedByTrim(s); }
    }
    if t == [] then Some(0) else ParseDecimal(t)
  }
}

=== FILE: validators.dfy ===
/**
  The request-field validators of lib/validators.ts. A field of a JSON body or a
  query string arrives as a JavaScript value of unknown type.
 */
module Validators {
  import opened Wrappers
  import opened Text

  /** A JavaScript value as read from a parsed JSON body or a query string. */
  datatype JsValue = Undefined | Null | Bool(b: bool) | Num(n: int) | Str(s: string) | Obj

  /** A parsed JSON request body; invalid JSON or a non-object body has no fields. */
  type Body = map<string, JsValue>

  /** `body?.name`: a missing field reads as `undefined`. */
  function Field(body: Body, name: string): JsValue {
    if name in body then body[name] else Undefined
  }

  /** `searchParams.get(name)`: a missing parameter reads as `null`. */
  function Param(params: map<string, string>, name: string): JsValue {
    if name in params then Str(params[name]) else Null
  }

  /** `getString(value, max)`: the trimmed string when it is non-empty and at most `max` long. */
  function GetString(value: JsValue, max: int): (r: Option<string>)
    ensures !value.Str? ==> r == None
    ensures value.Str? && AllSpace(value.s) ==> r == None
    ensures value.Str? && |Trim(value.s)| > max ==> r == None
    ensures r.Some? ==> value.Str? && r.value == Trim(value.s)
    ensures r.Some? ==> 1 <= |r.value| <= max && Trimmed(r.value)
    ensures value.Str? && !AllSpace(value.s) && |Trim(value.s)| <= max ==> r == Some(Trim(value.s))
  {
    if !value.Str? then None
    else
      var trimmed := Trim(value.s);
      if trimmed == [] then None
      else if |trimmed| > max then None
      else Some(trimmed)
  }

  /** `getOptionalString(value, max)`: the same ladder behind an extra early exit. */
  function GetOptionalString(value: JsValue, max: int): (r: Option<string>)
    ensures r == GetString(value, max)
  {
    if value == Undefined || value == Null || value == Str("") then None
    else if !value.Str? then None
    else
      var trimmed := Trim(value.s);
      if trimmed == [] then None
      else if |trimmed| > max then None
      else Some(trimmed)
  }

  /** A validated string is accepted again unchanged. */
  lemma GetStringIdempotent(value: JsValue, max: int)
    requires GetString(value, max).Some?
    ensures GetString(Str(GetString(value, max).value), max) == GetString(value, max)
  {
    TrimIdempotent(value.s);
  }

  /** `Number(value)`; `None` stands for NaN and the infinities. */
  function ToNumber(value: JsValue): (r: Option<int>)
    ensures value.Num? ==> r == Some(value.n)
    ensures value == Null || value == Str("") ==> r == Some(0)
    ensures value == Undefined || value == Obj ==> r == None
  {
    match value
    case Undefined => None
    case Null => Some(0)
    case Bool(b) => Some(if b then 1 else 0)
    case Num(n) => Some(n)
    case Str(s) => StringToNumber(s)
    case Obj => None
  }

  /** `clampNumber(value, min, max, fallback)`. */
  function ClampNumber(value: JsValue, min: int, max: int, fallback: int): (r: int)
    ensures value == Null || value == Undefined || value == Str("") ==> r == fallback
    ensures ToNumber(value).None? ==> r == fallback
    ensures value != Null && value != Undefined && value != Str("") && ToNumber(value).Some? ==>
              var n := ToNumber(value).value;
              && (min <= max ==> min <= r <= max)
              && (min <= n <= max ==> r == n)
              && (n < min && min <= max ==> r == min)
              && (n > max ==> r == max)
              && (max < min ==> r == max)
  {
    if value == Null || value == Undefined || value == Str("") then fallback
    else
      var parsed := ToNumber(value);
      if parsed.None? then fallback
      else
        var atLeastMin := if parsed.value < min then min else parsed.value;
        if max < atLeastMin then max else atLeastMin
  }
}

=== FILE: wrappers.dfy ===
/** Optional values and fallible results, used wherever the source returns null or an error. */
module Wrappers {

  datatype Option<+T> = None | Some(value: T)

  /** An operation that either produced a value or failed with the message the source reports. */
  datatype Result<+T> = Ok(value: T) | Err(message: string)
}
